=== FILE: README.md ===
# RXTX in Dafny

A model of the Python library `rxtx`, which computes `X @ X.T` for a square
matrix `X` with RXTX (Algorithm 1 of arXiv:2505.09814). RXTX uses 26 general
block products and 8 block Gram products.
The library has four functions, all in `src/rxtx.py`, and all four are modelled:

- `pad_matrix` appends zero rows and columns until the side is a multiple of
  the block size. Its model is `Padding.Pad`.
- `split_into_blocks` cuts a square matrix into a 4 by 4 grid of equal blocks
  and lists them in row-major order. Its models are `Grid.Split` and the loop
  `Grid.SplitIntoBlocks`.
- `rxtx` maps the 16 blocks to the 4 by 4 grid of output blocks. It computes
  `m1..m26`, `s1..s8`, the ten upper blocks `C11..C44`, then the six lower
  blocks as transposes. Its model is `Kernel.Rxtx`, with one function per
  intermediate: `Kernel.M1`..`Kernel.M26`, `Kernel.S1`..`Kernel.S8`,
  `Kernel.C11`..`Kernel.C44`, `Kernel.Schedule` and `Kernel.Complete`.
- `combine_blocks` does `np.hstack` on each row, then `np.vstack` on the rows.
  Its model is `Grid.Combine`.

Matrices are `Matrices.Matrix` values with explicit `rows`, `cols` and a
sequence of rows. Entries are unbounded integers. The algebraic identity behind
RXTX holds over every commutative ring, so integers stand in for the library's
floating-point numbers (see "Left out").

The main theorems are in `Pipeline`:

- `Pipeline.RxtxProductIsGram`: `combine_blocks(rxtx(split_into_blocks(X)))`
  equals `Y @ Y.T`, where `Y` is the top-left part of `X` that the blocks cover.
- `Pipeline.RxtxProductExact`: when 4 divides the side, the result is
  `X @ X.T` itself. This is the library's test.
- `Pipeline.PaddedRxtxCorner`: after `pad_matrix`, the result holds `X @ X.T`
  in its top-left corner and zeros elsewhere. This is the library's example.

Behind these, the kernel is proved block by block. `Kernel.C11IsGram` …
`Kernel.C44IsGram` prove each computed upper block equal to the block of `X @ X.T` computed directly.
`Kernel.RxtxIsGramGrid` then proves the whole output grid equal to the
directly computed one.

What the code checks, and what the model requires instead:

- `split_into_blocks` computes `b = n // 4` (src/rxtx.py:22) and drops the
  last `n % 4` rows and columns without complaint. `Grid.Split` does the same,
  and `Grid.Covered` is the side that is kept.
- Nothing validates its input.
  - The tuple unpacking of `rxtx` (src/rxtx.py:34-35) needs exactly 16
    blocks and fails on any other count. Blocks of mismatched shapes are not
    checked either. Shapes that numpy cannot broadcast make an addition or a
    product fail. Some mismatched shapes do broadcast, and then `rxtx` runs
    and returns a grid of other shapes: with `X2` 1 by `w` and the other
    blocks `h` by `w`, the sums broadcast to `h` by `w`, `m8` is 1 by `h`,
    `s2` is 1 by 1, and `C11`, `C14` and `C34` broadcast back to `h` by `h`.
    The precondition `Kernel.KernelInput` excludes every one of these inputs,
    and broadcasting is not modelled. Grids that the stacking calls reject
    are excluded by `Grid.Combinable`.
  - `pad_matrix` pads any matrix by `pad_to - n` on both axes, where `n` is
    the row count (src/rxtx.py:12-15). `Padding.Pad` does the same for any
    shape.
- The kernel works on any 16 blocks of one `h` by `w` shape and returns
  `h` by `h` output blocks. `Kernel.Rxtx` does the same.

## Model

| member | source | states |
|---|---|---|
| Padding.PadTo | src/rxtx.py:12-13 | the padded size is a multiple of the block size, at least `n` and less than `n + bs` |
| Padding.PadToFormula | src/rxtx.py:13 | the padded size equals the code's `((n + bs - 1) // bs) * bs` |
| Padding.PadToLeast | src/rxtx.py:13 | the padded size is at most every multiple of `bs` that is at least `n`, so it is the least such multiple |
| Padding.PadToExact | src/rxtx.py:13 | a size that `bs` already divides is not changed |
| Padding.Pad | src/rxtx.py:12-15 | the result has `pad_to` rows and `pad_to - n` extra columns; the input's entries keep their positions; every appended entry is zero |
| Padding.UnpadPad | src/rxtx.py:14-15 | cutting the input's shape from the top-left corner of the padded matrix gives back the input |
| Padding.PadExact | src/rxtx.py:12-15 | a matrix whose side `bs` divides is returned unchanged |
| Padding.PadIdempotent | src/rxtx.py:12-15 | padding twice is the same as padding once |
| Padding.PadSquare | src/rxtx.py:12-15 | a square input gives a square result whose side `bs` divides |
| Grid.Covered | src/rxtx.py:21-22 | the side the blocks cover, `(n // g) * g`, is a multiple of `g`, at most `n` and more than `n - g` |
| Grid.Block | src/rxtx.py:22-26 | block `(i, j)` is `n // g` by `n // g` |
| Grid.BlockAt | src/rxtx.py:26 | entry `(r, c)` of block `(i, j)` is entry `(i*b + r, j*b + c)` of `X`, and that position is inside `X` |
| Grid.Split | src/rxtx.py:17-28 | the split has `g * g` blocks, all `n // g` by `n // g` |
| Grid.SplitAt | src/rxtx.py:24-27 | the list is in row-major order: element `i*g + j` is block `(i, j)` |
| Grid.SplitIntoBlocks | src/rxtx.py:21-28 | the nested loop that appends block after block returns exactly the split |
| Grid.HStack | src/rxtx.py:105 | horizontal stacking of a non-empty row of blocks of one height keeps that height and adds up the widths |
| Grid.VStack | src/rxtx.py:106 | vertical stacking of a non-empty column of blocks of one width keeps that width and adds up the heights |
| Grid.Combine | src/rxtx.py:104-106 | the result is as wide as the first stacked row |
| Grid.StackedRows | src/rxtx.py:105 | there is one stacked row per row of the grid, and row `p` is `np.hstack` of row `p` of the grid |
| Grid.CombineShape | src/rxtx.py:104-106 | the combined matrix is as tall as the stacked rows together, which is the total height of the grid's first column of blocks, and as wide as the first row |
| Grid.GridCombinable | src/rxtx.py:104-106 | an `m` by `n` grid of `h` by `w` blocks can be combined into an `m*h` by `n*w` matrix |
| Grid.CombineAt | src/rxtx.py:104-106 | entry `(i, j)` of block `(p, q)` lands at position `(p*h + i, q*w + j)` of the combined matrix |
| Grid.CombineAtPosition | src/rxtx.py:104-106 | every position `(r, c)` of a combined `g` by `g` grid of `b` by `b` blocks is entry `(i, j)` of some block `(p, q)` with `r = p*b + i` and `c = q*b + j` |
| Grid.CombineSplit | src/rxtx.py:17-106 | combining the split, regrouped into rows of `g`, gives back the covered top-left part of `X` |
| Grid.CombineSplitExact | src/rxtx.py:17-106 | when `g` divides the side, combining the split gives back `X` |
| Grid.SplitCombine | src/rxtx.py:17-106 | splitting a combined `g` by `g` grid of equal square blocks gives back the grid |
| Matrices.Add | src/rxtx.py:37-84 | the sum of two matrices of one shape has that shape |
| Matrices.AddAt | src/rxtx.py:37-84 | entry `(i, j)` of `A + B` is the sum of the entries `(i, j)` of `A` and `B` |
| Matrices.Sub | src/rxtx.py:37-84 | the difference of two matrices of one shape has that shape |
| Matrices.SubAt | src/rxtx.py:37-84 | entry `(i, j)` of `A - B` is the difference of the entries `(i, j)` of `A` and `B` |
| Matrices.Neg | src/rxtx.py:37-84 | `-A` has the shape of `A` |
| Matrices.NegAt | src/rxtx.py:37-84 | entry `(i, j)` of `-A` is the negated entry `(i, j)` of `A` |
| Matrices.Mul | src/rxtx.py:37-84 | `A @ B` has the rows of `A` and the columns of `B`, and needs `A`'s column count to equal `B`'s row count |
| Matrices.MulAt | src/rxtx.py:37-84 | entry `(i, j)` of `A @ B` is the dot product of row `i` of `A` and column `j` of `B` |
| Matrices.Transpose | src/rxtx.py:87-92 | `.T` swaps the shape and puts entry `(i, j)` at `(j, i)` |
| Matrices.MulTransposeAt | src/rxtx.py:37 | entry `(i, j)` of `A @ B.T` is the dot product of row `i` of `A` and row `j` of `B` |
| Matrices.TransposeOfProduct | src/rxtx.py:87-92 | `(A @ B.T).T == B @ A.T` |
| Matrices.GramIsSymmetric | src/rxtx.py:86-92 | `X @ X.T` is symmetric for every `X` |
| Kernel.KernelInputPairwise | src/rxtx.py:34-35 | the kernel's input is exactly 16 blocks, as the unpacking needs, any two of which have one shape, so that every sum and product is defined without broadcasting |
| Kernel.Unpack | src/rxtx.py:34-35 | unpacking 16 blocks of one shape gives 16 named blocks of one shape |
| Kernel.M1 | src/rxtx.py:37 | `m1` is defined whenever the 16 blocks share one `h` by `w` shape, and is `h` by `h` |
| Kernel.M1At | src/rxtx.py:37 | entry `(i, j)` of `m1` is the signed sum of row products `Xk[i] · Xl[j]` that expanding both factors gives |
| Kernel.M2 | src/rxtx.py:38 | `m2` is defined whenever the 16 blocks share one `h` by `w` shape, and is `h` by `h` |
| Kernel.M2At | src/rxtx.py:38 | entry `(i, j)` of `m2` is the signed sum of row products `Xk[i] · Xl[j]` that expanding both factors gives |
| Kernel.M3 | src/rxtx.py:39 | `m3` is defined whenever the 16 blocks share one `h` by `w` shape, and is `h` by `h` |
| Kernel.M3At | src/rxtx.py:39 | entry `(i, j)` of `m3` is the signed sum of row products `Xk[i] · Xl[j]` that expanding both factors gives |
| Kernel.M4 | src/rxtx.py:40 | `m4` is defined whenever the 16 blocks share one `h` by `w` shape, and is `h` by `h` |
| Kernel.M4At | src/rxtx.py:40 | entry `(i, j)` of `m4` is the signed sum of row products `Xk[i] · Xl[j]` that expanding both factors gives |
| Kernel.M5 | src/rxtx.py:41 | `m5` is defined whenever the 16 blocks share one `h` by `w` shape, and is `h` by `h` |
| Kernel.M5At | src/rxtx.py:41 | entry `(i, j)` of `m5` is the signed sum of row products `Xk[i] · Xl[j]` that expanding both factors gives |
| Kernel.M6 | src/rxtx.py:42 | `m6` is defined whenever the 16 blocks share one `h` by `w` shape, and is `h` by `h` |
| Kernel.M6At | src/rxtx.py:42 | entry `(i, j)` of `m6` is the signed sum of row products `Xk[i] · Xl[j]` that expanding both factors gives |
| Kernel.M7 | src/rxtx.py:43 | `m7` is defined whenever the 16 blocks share one `h` by `w` shape, and is `h` by `h` |
| Kernel.M7At | src/rxtx.py:43 | entry `(i, j)` of `m7` is the signed sum of row products `Xk[i] · Xl[j]` that expanding both factors gives |
| Kernel.M8 | src/rxtx.py:44 | `m8` is defined whenever the 16 blocks share one `h` by `w` shape, and is `h` by `h` |
| Kernel.M8At | src/rxtx.py:44 | entry `(i, j)` of `m8` is the signed sum of row products `Xk[i] · Xl[j]` that expanding both factors gives |
| Kernel.M9 | src/rxtx.py:45 | `m9` is defined whenever the 16 blocks share one `h` by `w` shape, and is `h` by `h` |
| Kernel.M9At | src/rxtx.py:45 | entry `(i, j)` of `m9` is the signed sum of row products `Xk[i] · Xl[j]` that expanding both factors gives |
| Kernel.M10 | src/rxtx.py:46 | `m10` is defined whenever the 16 blocks share one `h` by `w` shape, and is `h` by `h` |
| Kernel.M10At | src/rxtx.py:46 | entry `(i, j)` of `m10` is the signed sum of row products `Xk[i] · Xl[j]` that expanding both factors gives |
| Kernel.M11 | src/rxtx.py:47 | `m11` is defined whenever the 16 blocks share one `h` by `w` shape, and is `h` by `h` |
| Kernel.M11At | src/rxtx.py:47 | entry `(i, j)` of `m11` is the signed sum of row products `Xk[i] · Xl[j]` that expanding both factors gives |
| Kernel.M12 | src/rxtx.py:48 | `m12` is defined whenever the 16 blocks share one `h` by `w` shape, and is `h` by `h` |
| Kernel.M12At | src/rxtx.py:48 | entry `(i, j)` of `m12` is the signed sum of row products `Xk[i] · Xl[j]` that expanding both factors gives |
| Kernel.M13 | src/rxtx.py:49 | `m13` is defined whenever the 16 blocks share one `h` by `w` shape, and is `h` by `h` |
| Kernel.M13At | src/rxtx.py:49 | entry `(i, j)` of `m13` is the signed sum of row products `Xk[i] · Xl[j]` that expanding both factors gives |
| Kernel.M14 | src/rxtx.py:50 | `m14` is defined whenever the 16 blocks share one `h` by `w` shape, and is `h` by `h` |
| Kernel.M14At | src/rxtx.py:50 | entry `(i, j)` of `m14` is the signed sum of row products `Xk[i] · Xl[j]` that expanding both factors gives |
| Kernel.M15 | src/rxtx.py:51 | `m15` is defined whenever the 16 blocks share one `h` by `w` shape, and is `h` by `h` |
| Kernel.M15At | src/rxtx.py:51 | entry `(i, j)` of `m15` is the signed sum of row products `Xk[i] · Xl[j]` that expanding both factors gives |
| Kernel.M16 | src/rxtx.py:52 | `m16` is defined whenever the 16 blocks share one `h` by `w` shape, and is `h` by `h` |
| Kernel.M16At | src/rxtx.py:52 | entry `(i, j)` of `m16` is the signed sum of row products `Xk[i] · Xl[j]` that expanding both factors gives |
| Kernel.M17 | src/rxtx.py:53 | `m17` is defined whenever the 16 blocks share one `h` by `w` shape, and is `h` by `h` |
| Kernel.M17At | src/rxtx.py:53 | entry `(i, j)` of `m17` is the signed sum of row products `Xk[i] · Xl[j]` that expanding both factors gives |
| Kernel.M18 | src/rxtx.py:54 | `m18` is defined whenever the 16 blocks share one `h` by `w` shape, and is `h` by `h` |
| Kernel.M18At | src/rxtx.py:54 | entry `(i, j)` of `m18` is the signed sum of row products `Xk[i] · Xl[j]` that expanding both factors gives |
| Kernel.M19 | src/rxtx.py:55 | `m19` is defined whenever the 16 blocks share one `h` by `w` shape, and is `h` by `h` |
| Kernel.M19At | src/rxtx.py:55 | entry `(i, j)` of `m19` is the signed sum of row products `Xk[i] · Xl[j]` that expanding both factors gives |
| Kernel.M20 | src/rxtx.py:56 | `m20` is defined whenever the 16 blocks share one `h` by `w` shape, and is `h` by `h` |
| Kernel.M20At | src/rxtx.py:56 | entry `(i, j)` of `m20` is the signed sum of row products `Xk[i] · Xl[j]` that expanding both factors gives |
| Kernel.M21 | src/rxtx.py:57 | `m21` is defined whenever the 16 blocks share one `h` by `w` shape, and is `h` by `h` |
| Kernel.M21At | src/rxtx.py:57 | entry `(i, j)` of `m21` is the signed sum of row products `Xk[i] · Xl[j]` that expanding both factors gives |
| Kernel.M22 | src/rxtx.py:58 | `m22` is defined whenever the 16 blocks share one `h` by `w` shape, and is `h` by `h` |
| Kernel.M22At | src/rxtx.py:58 | entry `(i, j)` of `m22` is the signed sum of row products `Xk[i] · Xl[j]` that expanding both factors gives |
| Kernel.M23 | src/rxtx.py:59 | `m23` is defined whenever the 16 blocks share one `h` by `w` shape, and is `h` by `h` |
| Kernel.M23At | src/rxtx.py:59 | entry `(i, j)` of `m23` is the signed sum of row products `Xk[i] · Xl[j]` that expanding both factors gives |
| Kernel.M24 | src/rxtx.py:60 | `m24` is defined whenever the 16 blocks share one `h` by `w` shape, and is `h` by `h` |
| Kernel.M24At | src/rxtx.py:60 | entry `(i, j)` of `m24` is the signed sum of row products `Xk[i] · Xl[j]` that expanding both factors gives |
| Kernel.M25 | src/rxtx.py:61 | `m25` is defined whenever the 16 blocks share one `h` by `w` shape, and is `h` by `h` |
| Kernel.M25At | src/rxtx.py:61 | entry `(i, j)` of `m25` is the signed sum of row products `Xk[i] · Xl[j]` that expanding both factors gives |
| Kernel.M26 | src/rxtx.py:62 | `m26` is defined whenever the 16 blocks share one `h` by `w` shape, and is `h` by `h` |
| Kernel.M26At | src/rxtx.py:62 | entry `(i, j)` of `m26` is the signed sum of row products `Xk[i] · Xl[j]` that expanding both factors gives |
| Kernel.S1 | src/rxtx.py:65 | `s1` is `h` by `h` |
| Kernel.S2 | src/rxtx.py:66 | `s2` is `h` by `h` |
| Kernel.S3 | src/rxtx.py:67 | `s3` is `h` by `h` |
| Kernel.S4 | src/rxtx.py:68 | `s4` is `h` by `h` |
| Kernel.S5 | src/rxtx.py:69 | `s5` is `h` by `h` |
| Kernel.S6 | src/rxtx.py:70 | `s6` is `h` by `h` |
| Kernel.S7 | src/rxtx.py:71 | `s7` is `h` by `h` |
| Kernel.S8 | src/rxtx.py:72 | `s8` is `h` by `h` |
| Kernel.C11 | src/rxtx.py:75 | `C11` is `h` by `h` |
| Kernel.C11At | src/rxtx.py:75 | every entry of `C11` equals the same entry of the direct block product: `X1..X4` times the transposes of `X1..X4`, pairwise, summed |
| Kernel.C11IsGram | src/rxtx.py:75 | `C11` equals the block in block row 1, block column 1 of `X @ X.T` computed directly, for every input |
| Kernel.C12 | src/rxtx.py:76 | `C12` is `h` by `h` |
| Kernel.C12At | src/rxtx.py:76 | every entry of `C12` equals the same entry of the direct block product: `X1..X4` times the transposes of `X5..X8`, pairwise, summed |
| Kernel.C12IsGram | src/rxtx.py:76 | `C12` equals the block in block row 1, block column 2 of `X @ X.T` computed directly, for every input |
| Kernel.C13 | src/rxtx.py:77 | `C13` is `h` by `h` |
| Kernel.C13At | src/rxtx.py:77 | every entry of `C13` equals the same entry of the direct block product: `X1..X4` times the transposes of `X9..X12`, pairwise, summed |
| Kernel.C13IsGram | src/rxtx.py:77 | `C13` equals the block in block row 1, block column 3 of `X @ X.T` computed directly, for every input |
| Kernel.C14 | src/rxtx.py:78 | `C14` is `h` by `h` |
| Kernel.C14At | src/rxtx.py:78 | every entry of `C14` equals the same entry of the direct block product: `X1..X4` times the transposes of `X13..X16`, pairwise, summed |
| Kernel.C14IsGram | src/rxtx.py:78 | `C14` equals the block in block row 1, block column 4 of `X @ X.T` computed directly, for every input |
| Kernel.C22 | src/rxtx.py:79 | `C22` is `h` by `h` |
| Kernel.C22At | src/rxtx.py:79 | every entry of `C22` equals the same entry of the direct block product: `X5..X8` times the transposes of `X5..X8`, pairwise, summed |
| Kernel.C22IsGram | src/rxtx.py:79 | `C22` equals the block in block row 2, block column 2 of `X @ X.T` computed directly, for every input |
| Kernel.C23 | src/rxtx.py:80 | `C23` is `h` by `h` |
| Kernel.C23At | src/rxtx.py:80 | every entry of `C23` equals the same entry of the direct block product: `X5..X8` times the transposes of `X9..X12`, pairwise, summed |
| Kernel.C23IsGram | src/rxtx.py:80 | `C23` equals the block in block row 2, block column 3 of `X @ X.T` computed directly, for every input |
| Kernel.C24 | src/rxtx.py:81 | `C24` is `h` by `h` |
| Kernel.C24At | src/rxtx.py:81 | every entry of `C24` equals the same entry of the direct block product: `X5..X8` times the transposes of `X13..X16`, pairwise, summed |
| Kernel.C24IsGram | src/rxtx.py:81 | `C24` equals the block in block row 2, block column 4 of `X @ X.T` computed directly, for every input |
| Kernel.C33 | src/rxtx.py:82 | `C33` is `h` by `h` |
| Kernel.C33At | src/rxtx.py:82 | every entry of `C33` equals the same entry of the direct block product: `X9..X12` times the transposes of `X9..X12`, pairwise, summed |
| Kernel.C33IsGram | src/rxtx.py:82 | `C33` equals the block in block row 3, block column 3 of `X @ X.T` computed directly, for every input |
| Kernel.C34 | src/rxtx.py:83 | `C34` is `h` by `h` |
| Kernel.C34At | src/rxtx.py:83 | every entry of `C34` equals the same entry of the direct block product: `X9..X12` times the transposes of `X13..X16`, pairwise, summed |
| Kernel.C34IsGram | src/rxtx.py:83 | `C34` equals the block in block row 3, block column 4 of `X @ X.T` computed directly, for every input |
| Kernel.C44 | src/rxtx.py:84 | `C44` is `h` by `h` |
| Kernel.C44At | src/rxtx.py:84 | every entry of `C44` equals the same entry of the direct block product: `X13..X16` times the transposes of `X13..X16`, pairwise, summed |
| Kernel.C44IsGram | src/rxtx.py:84 | `C44` equals the block in block row 4, block column 4 of `X @ X.T` computed directly, for every input |
| Kernel.Schedule | src/rxtx.py:37-84 | the ten computed upper blocks are all `h` by `h` |
| Kernel.ScheduleIsGram | src/rxtx.py:37-84 | the ten computed upper blocks are the ten upper blocks of `X @ X.T` computed directly, for every input |
| Kernel.Complete | src/rxtx.py:86-100 | the completed grid is a 4 by 4 grid of `h` by `h` blocks |
| Kernel.CompleteMirrors | src/rxtx.py:86-100 | off the diagonal, every block of the completed grid is the transpose of its mirror block |
| Kernel.Rxtx | src/rxtx.py:30-102 | on 16 blocks of one `h` by `w` shape, the kernel returns a 4 by 4 grid of `h` by `h` blocks |
| Kernel.GramBlock | src/rxtx.py:37-84 | the directly computed block `(p, q)`, `Σk X(4p+k) @ X(4q+k).T`, is `h` by `h` |
| Kernel.GramBlockAt | src/rxtx.py:37-84 | entry `(i, j)` of a direct block is the sum of four row products |
| Kernel.GramBlockTranspose | src/rxtx.py:86-92 | transposing direct block `(p, q)` gives direct block `(q, p)` |
| Kernel.CompleteGram | src/rxtx.py:86-100 | completing the direct upper blocks by transposition gives the whole direct grid |
| Kernel.RxtxIsGramGrid | src/rxtx.py:30-102 | the kernel's grid is the direct grid of `X @ X.T` blocks, for every input of 16 blocks of one shape |
| Kernel.GramGridMirrors | src/rxtx.py:86-92 | every block of the direct grid is the transpose of its mirror |
| Kernel.RxtxBlockSymmetric | src/rxtx.py:86-100 | every block of the kernel's grid is the transpose of its mirror |
| Pipeline.RxtxProduct | src/rxtx.py:17-106 | combining the kernel's grid over the split gives a square matrix whose side is the covered side |
| Pipeline.SplitQuartered | src/rxtx.py:24-27 | element `4p + k` of the split is block `(p, k)` |
| Pipeline.BlockRowDots | src/rxtx.py:26 | the four row products of an entry of a direct block add up to one dot product of two covered rows of `X` |
| Pipeline.GramGridOfSplitEntry | src/rxtx.py:17-106 | entry `(r, c)` of the combined direct grid is the dot product of rows `r` and `c` of `X`, cut to the covered side |
| Pipeline.RxtxProductIsGramGrid | src/rxtx.py:30-106 | the pipeline's result is the combined direct grid |
| Pipeline.RxtxProductIsGram | src/rxtx.py:17-106 | `combine_blocks(rxtx(split_into_blocks(X)))` equals `Y @ Y.T` for the covered top-left square `Y` of `X` |
| Pipeline.RxtxProductExact | tests/test_rxtx.py:9-13 | when 4 divides the side, as for the 16 by 16 matrix of the test, the result equals `X @ X.T` exactly |
| Pipeline.RxtxProductSymmetric | src/rxtx.py:86-100 | the pipeline's result is a symmetric matrix |
| Pipeline.PaddedRxtx | example.py:14-31 | the padded pipeline's result is `pad_to` by `pad_to` |
| Pipeline.PaddedRxtxIsGram | example.py:29-32 | after padding, the result equals `P @ P.T` for the padded matrix `P`, as the example asserts |
| Pipeline.PaddedGramAt | example.py:29-32 | entry `(r, c)` of `P @ P.T` is the entry of `X @ X.T` inside the original square and zero outside it |
| Pipeline.PaddedRxtxCorner | example.py:29-32 | the padded pipeline's result has `X @ X.T` in its top-left `n` by `n` corner and zeros in the padding rows and columns |

## Left out

- Floating point and `np.allclose` with its tolerances are not modelled.
  Entries are exact integers, and the theorems state exact equality.
  Rounding is not modelled.
- numpy errors are not modelled as error results. A list that is not 16
  blocks makes the unpacking fail in Python. Blocks of mismatched shapes make
  numpy fail when they cannot broadcast, and give a different grid when they
  can. All of these are excluded by the precondition `Kernel.KernelInput`.
  Likewise, grids that `np.hstack`/`np.vstack` reject are excluded by
  `Grid.Combinable`.
  `pad_matrix` with a block size of 0 divides by zero, and a negative block
  size gives a negative pad width that `np.pad` rejects; `Padding.Pad`
  requires `bs > 0`.
- Grid.Split: requires a square input. The code reads only `X.shape[0]`
  (src/rxtx.py:21), and numpy clips a slice to the array (src/rxtx.py:26), so
  `split_into_blocks` never raises. With more columns than rows, the columns
  past `4 * b` are dropped. With fewer columns than rows, the blocks of the
  last block columns are narrower, or empty: an 8 by 6 input gives 2 by 0
  blocks in the last block column. What `rxtx` then does with blocks of
  different widths depends on numpy's broadcasting, which is not modelled.
- Blocks per row other than 4 are modelled by `Grid.Split`, which takes `g`
  as a parameter. `Grid.Combine` takes no block count and accepts any
  combinable grid. `Kernel.Rxtx` always takes 16 blocks, as the code does.
- Grid.Split: requires `g > 0`. With `blocks_per_row` equal to 0,
  `n // blocks_per_row` raises `ZeroDivisionError` (src/rxtx.py:22). A negative
  value gives an empty `range` and the empty list (src/rxtx.py:24). `g` is a
  natural number, so negative values are not modelled, and the zero case is
  excluded by the precondition.
- numpy's own broadcasting and dtype rules, and the views that slicing
  returns instead of copies, are not modelled.
- Fixed-width integer dtypes are not modelled. `pad_matrix`, the slices,
  `+`, `-`, unary `-` and `@` keep the input's dtype, and `example.py:18`
  builds an input with `dtype=int`, a 64-bit type that wraps on overflow.
  `Matrices` uses unbounded integers, so once an entry or a dot product
  leaves the 64-bit range the code's result and the model's differ. Every
  step of the pipeline is a ring operation, so the theorems carry over
  modulo 2^64 for such inputs; that reduction is argued here, not proved.
- `example.py`'s random and structured inputs and its `viz` plots are I/O and
  are not modelled. The example's check is modelled for every input.
- How fast the code runs, and the count of multiplications, are not modelled.

=== FILE: arith.dfy ===
/** Facts about multiplication, division and remainder of natural numbers
    that the solver does not find on its own.  Dafny's `/` and `%` agree with
    Python's `//` and `%` on non-negative operands, which are the only ones
    the model uses. */
module Arith {

  /** The only multiple of a positive `d` in `[0, d)` is zero. */
  lemma ZeroFactor(x: int, d: int, r: int)
    requires d > 0 && 0 <= r < d && x * d == r
    ensures x == 0
  {
  }

  /** Multiplication by a natural number is monotone. */
  lemma MulMono(a: int, b: int, c: nat)
    requires a <= b
    ensures a * c <= b * c
  {
  }

  /** Quotient and remainder are unique: `q * d + r` with `0 <= r < d`
      divides back into `q` and `r`. */
  lemma DivModUnique(q: nat, d: nat, r: nat)
    requires d > 0 && r < d
    ensures (q * d + r) / d == q
    ensures (q * d + r) % d == r
  {
    var a := q * d + r;
    var q', r' := a / d, a % d;
    assert (q - q') * d == r' - r;
    if r' >= r {
      ZeroFactor(q - q', d, r' - r);
    } else {
      ZeroFactor(q' - q, d, r - r');
    }
  }

  /** `k * d` is a multiple of `d`. */
  lemma MultipleMod(k: nat, d: nat)
    requires d > 0
    ensures (k * d) % d == 0
    ensures (k * d) / d == k
  {
    DivModUnique(k, d, 0);
  }

  /** Two different multiples of `d` are at least `d` apart. */
  lemma MultiplesApart(x: nat, y: nat, d: nat)
    requires d > 0 && x % d == 0 && y % d == 0 && y < x
    ensures y + d <= x
  {
    var k, l := x / d, y / d;
    assert x == k * d && y == l * d;
    if k <= l {
      MulMono(k, l, d);
    }
    MulMono(l + 1, k, d);
    assert (l + 1) * d == l * d + d;
  }

  /** Subtracting the remainder rounds down to a multiple. */
  lemma RoundDown(a: nat, d: nat)
    requires d > 0
    ensures (a - a % d) % d == 0
    ensures a - a % d == (a / d) * d
  {
    MultipleMod(a / d, d);
  }

  // ---------------------------------------------------------------------
  // Offsets of equal pieces laid end to end

  /** Where piece `k` starts when pieces of length `b` are laid end to end,
      that is `k * b` (`OffsetIsProduct`).  Written as a repeated sum so that
      index arithmetic over pieces stays linear. */
  function Offset(k: nat, b: nat): nat {
    if k == 0 then 0 else Offset(k - 1, b) + b
  }

  lemma {:induction false} OffsetIsProduct(k: nat, b: nat)
    ensures Offset(k, b) == k * b
  {
    if k > 0 {
      OffsetIsProduct(k - 1, b);
      assert k * b == (k - 1) * b + b;
    }
  }

  /** Later pieces start later, and piece `k` ends where piece `k + 1` starts. */
  lemma {:induction false} OffsetMono(k1: nat, k2: nat, b: nat)
    requires k1 <= k2
    ensures Offset(k1, b) <= Offset(k2, b)
    decreases k2
  {
    if k1 < k2 {
      OffsetMono(k1, k2 - 1, b);
    }
  }

  /** Every position below `Offset(g, b)` lies in exactly one piece: piece `p`
      at position `i` within it. */
  lemma {:induction false} Decompose(r: nat, b: nat, g: nat) returns (p: nat, i: nat)
    requires r < Offset(g, b)
    ensures p < g && i < b && r == Offset(p, b) + i
  {
    if r < Offset(g - 1, b) {
      p, i := Decompose(r, b, g - 1);
    } else {
      p, i := g - 1, r - Offset(g - 1, b);
    }
  }

  /** `g` pieces of length `n // g` fit in `n`. */
  lemma PiecesFit(n: nat, g: nat)
    requires g > 0
    ensures Offset(g, n / g) <= n
  {
    OffsetIsProduct(g, n / g);
  }

  /** Cutting `g` pieces of length `b` into `g` pieces again gives length `b`. */
  lemma PiecesExact(g: nat, b: nat)
    requires g > 0
    ensures Offset(g, b) / g == b && Offset(g, b) % g == 0
  {
    OffsetIsProduct(g, b);
    MultipleMod(b, g);
  }
}

=== FILE: grid.dfy ===
/** Cutting a square matrix into a grid of equal square blocks
    (`split_into_blocks`) and gluing a grid of blocks back into one matrix
    (`combine_blocks`: `np.hstack` of every row of blocks, then `np.vstack` of
    the rows).  Positions are written with `Offset(k, b)`, which is `k * b`
    (`Arith.OffsetIsProduct`). */
module Grid {
  import opened Matrices
  import opened Arith

  // ---------------------------------------------------------------------
  // Splitting

  /** The `b` by `b` slice `X[i*b:(i+1)*b, j*b:(j+1)*b]`, for a slice that
      lies inside `X`. */
  function Slice(X: Mat, b: nat, i: nat, j: nat): (B: Mat)
    requires Offset(i + 1, b) <= X.rows && Offset(j + 1, b) <= X.cols
    ensures B.rows == b && B.cols == b
    ensures forall r, c :: 0 <= r < b && 0 <= c < b ==> B.cells[r][c] == X.cells[Offset(i, b) + r][Offset(j, b) + c]
  {
    SubMatrix(X, Offset(i, b), Offset(j, b), b, b)
  }

  /** The side of the part of an `n` by `n` matrix that `g` by `g` blocks of
      side `n // g` cover: `n` rounded down to a multiple of `g`, the
      counterpart of `Padding.PadTo`, which rounds up. */
  function Covered(n: nat, g: nat): (t: nat)
    requires g > 0
    ensures t <= n < t + g
    ensures t % g == 0
  {
    OffsetIsProduct(g, n / g);
    MultipleMod(n / g, g);
    Offset(g, n / g)
  }

  /** Block `(i, j)` when `X` is cut into `g` by `g` blocks of side
      `b = n // g`. */
  function Block(X: Mat, g: nat, i: nat, j: nat): (B: Mat)
    requires X.rows == X.cols && g > 0 && i < g && j < g
    ensures B.rows == X.rows / g && B.cols == X.rows / g
  {
    PiecesFit(X.rows, g);
    OffsetMono(i + 1, g, X.rows / g);
    OffsetMono(j + 1, g, X.rows / g);
    Slice(X, X.rows / g, i, j)
  }

  /** Row `i` of blocks, left to right. */
  function BlockRow(X: Mat, g: nat, i: nat): (row: seq<Mat>)
    requires X.rows == X.cols && g > 0 && i < g
    ensures |row| == g && forall j :: 0 <= j < g ==> row[j] == Block(X, g, i, j)
  {
    seq(g, j requires 0 <= j < g => Block(X, g, i, j))
  }

  /** The first `i` rows of blocks, one row after the other. */
  function SplitRows(X: Mat, g: nat, i: nat): (blocks: seq<Mat>)
    requires X.rows == X.cols && g > 0 && i <= g
    ensures |blocks| == Offset(i, g)
    ensures forall k :: 0 <= k < |blocks| ==> blocks[k].rows == X.rows / g && blocks[k].cols == X.rows / g
  {
    if i == 0 then [] else SplitRows(X, g, i - 1) + BlockRow(X, g, i - 1)
  }

  /** `split_into_blocks(X, g)`: the `g * g` blocks of `X`, listed row by row,
      every one `n // g` by `n // g`.  When `g` does not divide `n`, the last
      `n % g` rows and columns fall in no block. */
  function Split(X: Mat, g: nat): (blocks: seq<Mat>)
    requires X.rows == X.cols && g > 0
    ensures |blocks| == Offset(g, g)
    ensures forall k :: 0 <= k < |blocks| ==> blocks[k].rows == X.rows / g && blocks[k].cols == X.rows / g
  {
    SplitRows(X, g, g)
  }

  /** Block `(p, q)` sits at position `p * g + q` of the first `i > p` rows
      of blocks. */
  lemma {:induction false} SplitRowsAt(X: Mat, g: nat, i: nat, p: nat, q: nat)
    requires X.rows == X.cols && g > 0 && p < i <= g && q < g
    ensures Offset(p, g) + q < Offset(i, g)
    ensures SplitRows(X, g, i)[Offset(p, g) + q] == Block(X, g, p, q)
  {
    if p < i - 1 {
      SplitRowsAt(X, g, i - 1, p, q);
    }
  }

  /** The list is in row-major order: block `(i, j)` sits at position
      `i * g + j`. */
  lemma SplitAt(X: Mat, g: nat, i: nat, j: nat)
    requires X.rows == X.cols && g > 0 && i < g && j < g
    ensures Offset(i, g) + j < |Split(X, g)| && Split(X, g)[Offset(i, g) + j] == Block(X, g, i, j)
  {
    SplitRowsAt(X, g, g, i, j);
  }

  /** Entry `(r, c)` of block `(i, j)` is entry `(i * b + r, j * b + c)` of
      `X`, where `b = n // g`. */
  lemma BlockAt(X: Mat, g: nat, i: nat, j: nat, r: nat, c: nat)
    requires X.rows == X.cols && g > 0 && i < g && j < g && r < X.rows / g && c < X.rows / g
    ensures Offset(i, X.rows / g) + r < X.rows && Offset(j, X.rows / g) + c < X.cols
    ensures Block(X, g, i, j).cells[r][c] == X.cells[Offset(i, X.rows / g) + r][Offset(j, X.rows / g) + c]
  {
    BlockEntry(X, g, X.rows / g, i, j, r, c);
  }

  /** `BlockAt` for a given side `b = n // g`: the block is the slice of
      side `b`, whose entries are read off `X`. */
  lemma BlockEntry(X: Mat, g: nat, b: nat, i: nat, j: nat, r: nat, c: nat)
    requires X.rows == X.cols && g > 0 && b == X.rows / g && i < g && j < g && r < b && c < b
    ensures Offset(i, b) + r < X.rows && Offset(j, b) + c < X.cols
    ensures Block(X, g, i, j).cells[r][c] == X.cells[Offset(i, b) + r][Offset(j, b) + c]
  {
    BlockIsSlice(X, g, i, j);
    SliceEntry(X, b, i, j, r, c);
  }

  /** Block `(i, j)` is the slice at those coordinates with side `n // g`. */
  lemma BlockIsSlice(X: Mat, g: nat, i: nat, j: nat)
    requires X.rows == X.cols && g > 0 && i < g && j < g
    ensures Offset(i + 1, X.rows / g) <= X.rows && Offset(j + 1, X.rows / g) <= X.cols
    ensures Block(X, g, i, j) == Slice(X, X.rows / g, i, j)
  {
    PiecesFit(X.rows, g);
    OffsetMono(i + 1, g, X.rows / g);
    OffsetMono(j + 1, g, X.rows / g);
  }

  /** Entry `(r, c)` of a slice, with the bounds that make it an entry of `X`. */
  lemma SliceEntry(X: Mat, b: nat, i: nat, j: nat, r: nat, c: nat)
    requires Offset(i + 1, b) <= X.rows && Offset(j + 1, b) <= X.cols && r < b && c < b
    ensures Offset(i, b) + r < X.rows && Offset(j, b) + c < X.cols
    ensures Slice(X, b, i, j).cells[r][c] == X.cells[Offset(i, b) + r][Offset(j, b) + c]
  {
  }

  /** Stretch `k` of `u`: its `b` entries from position `k * b` on. */
  function Stretch(u: Vector, b: nat, k: nat): (s: Vector)
    requires Offset(k + 1, b) <= |u|
    ensures |s| == b
  {
    u[Offset(k, b) .. Offset(k + 1, b)]
  }

  /** Row `i` of block `(p, k)` is stretch `k` of row `p * b + i` of `X`,
      where `b = n // g`. */
  lemma BlockRowStretch(X: Mat, g: nat, b: nat, p: nat, k: nat, i: nat)
    requires X.rows == X.cols && g > 0 && b == X.rows / g && p < g && k < g && i < b
    ensures Offset(p, b) + i < X.rows && Offset(k + 1, b) <= X.cols
    ensures Block(X, g, p, k).cells[i] == Stretch(X.cells[Offset(p, b) + i], b, k)
  {
    PiecesFit(X.rows, g);
    OffsetMono(p + 1, g, b);
    OffsetMono(k + 1, g, b);
    forall c | 0 <= c < b
      ensures Block(X, g, p, k).cells[i][c] == X.cells[Offset(p, b) + i][Offset(k, b) + c]
    {
      BlockEntry(X, g, b, p, k, i, c);
    }
  }

  /** The loop of `split_into_blocks`: rows of blocks top to bottom, and
      within a row left to right, each block appended to the list. */
  method SplitIntoBlocks(X: Mat, g: nat) returns (blocks: seq<Mat>)
    requires X.rows == X.cols && g > 0
    ensures blocks == Split(X, g)
  {
    blocks := [];
    var i := 0;
    while i < g
      invariant 0 <= i <= g
      invariant blocks == SplitRows(X, g, i)
    {
      var j := 0;
      while j < g
        invariant 0 <= j <= g
        invariant blocks == SplitRows(X, g, i) + BlockRow(X, g, i)[..j]
      {
        blocks := blocks + [Block(X, g, i, j)];
        j := j + 1;
      }
      i := i + 1;
    }
  }

  // ---------------------------------------------------------------------
  // Combining

  /** Two blocks side by side: `np.hstack([A, B])`. */
  function HCat(A: Mat, B: Mat): (C: Mat)
    requires A.rows == B.rows
    ensures C.rows == A.rows && C.cols == A.cols + B.cols
  {
    Matrix(A.rows, A.cols + B.cols, seq(A.rows, i requires 0 <= i < A.rows => A.cells[i] + B.cells[i]))
  }

  /** One block above the other: `np.vstack([A, B])`. */
  function VCat(A: Mat, B: Mat): (C: Mat)
    requires A.cols == B.cols
    ensures C.rows == A.rows + B.rows && C.cols == A.cols
  {
    Matrix(A.rows + B.rows, A.cols, A.cells + B.cells)
  }

  /** Every block of the row has as many rows as the first. */
  predicate SameHeight(row: seq<Mat>) {
    forall q :: 0 <= q < |row| ==> row[q].rows == row[0].rows
  }

  /** Every block of the column has as many columns as the first. */
  predicate SameWidth(col: seq<Mat>) {
    forall p :: 0 <= p < |col| ==> col[p].cols == col[0].cols
  }

  /** Total number of columns of a row of blocks. */
  function Width(row: seq<Mat>): nat {
    if |row| == 0 then 0 else row[0].cols + Width(row[1..])
  }

  /** Total number of rows of a column of blocks. */
  function Height(col: seq<Mat>): nat {
    if |col| == 0 then 0 else col[0].rows + Height(col[1..])
  }

  /** `np.hstack(row)`: the blocks of a non-empty row side by side. */
  function HStack(row: seq<Mat>): (R: Mat)
    requires |row| > 0 && SameHeight(row)
    ensures R.rows == row[0].rows && R.cols == Width(row)
    decreases |row|
  {
    if |row| == 1 then row[0] else HCat(row[0], HStack(row[1..]))
  }

  /** `np.vstack(col)`: the blocks of a non-empty column one above the other. */
  function VStack(col: seq<Mat>): (R: Mat)
    requires |col| > 0 && SameWidth(col)
    ensures R.rows == Height(col) && R.cols == col[0].cols
    decreases |col|
  {
    if |col| == 1 then col[0] else VCat(col[0], VStack(col[1..]))
  }

  /** What `combine_blocks` needs for its stacking calls to succeed: at least
      one row, no empty row, the blocks of a row of one height, and every row
      of the same total width. */
  predicate Combinable(grid: seq<seq<Mat>>) {
    |grid| > 0 &&
    (forall p :: 0 <= p < |grid| ==> |grid[p]| > 0 && SameHeight(grid[p])) &&
    forall p :: 0 <= p < |grid| ==> Width(grid[p]) == Width(grid[0])
  }

  /** `combine_blocks(grid)`: each row stacked horizontally, then the rows
      stacked vertically. */
  function Combine(grid: seq<seq<Mat>>): (C: Mat)
    requires Combinable(grid)
    ensures C.cols == Width(grid[0])
  {
    VStack(StackedRows(grid))
  }

  /** Each row of the grid stacked horizontally. */
  function StackedRows(grid: seq<seq<Mat>>): (rows: seq<Mat>)
    requires Combinable(grid)
    ensures |rows| == |grid| && forall p :: 0 <= p < |grid| ==> rows[p] == HStack(grid[p])
  {
    seq(|grid|, p requires 0 <= p < |grid| => HStack(grid[p]))
  }

  /** The first block of every row of the grid, top to bottom. */
  function FirstColumn(grid: seq<seq<Mat>>): (col: seq<Mat>)
    requires forall p :: 0 <= p < |grid| ==> |grid[p]| > 0
    ensures |col| == |grid| && forall p :: 0 <= p < |grid| ==> col[p] == grid[p][0]
  {
    seq(|grid|, p requires 0 <= p < |grid| => grid[p][0])
  }

  /** The glued matrix is as tall as its stacked rows together, which is as
      tall as the first column of blocks, and as wide as the first row. */
  lemma CombineShape(grid: seq<seq<Mat>>)
    requires Combinable(grid)
    ensures Combine(grid).rows == Height(StackedRows(grid)) == Height(FirstColumn(grid))
    ensures Combine(grid).cols == Width(grid[0])
  {
    SameHeights(StackedRows(grid), FirstColumn(grid));
  }

  /** Two columns of blocks whose blocks match in height have one height. */
  lemma {:induction false} SameHeights(a: seq<Mat>, b: seq<Mat>)
    requires |a| == |b| && forall p :: 0 <= p < |a| ==> a[p].rows == b[p].rows
    ensures Height(a) == Height(b)
    decreases |a|
  {
    if |a| > 0 {
      SameHeights(a[1..], b[1..]);
    }
  }

  // ---------------------------------------------------------------------
  // Grids of equal blocks

  /** `m` rows of `n` blocks, every block `h` by `w`. */
  predicate IsGrid(grid: seq<seq<Mat>>, m: nat, n: nat, h: nat, w: nat) {
    |grid| == m &&
    forall p :: 0 <= p < m ==> |grid[p]| == n && forall q :: 0 <= q < n ==> grid[p][q].rows == h && grid[p][q].cols == w
  }

  lemma {:induction false} WidthUniform(row: seq<Mat>, w: nat)
    requires forall q :: 0 <= q < |row| ==> row[q].cols == w
    ensures Width(row) == Offset(|row|, w)
  {
    if |row| > 0 {
      WidthUniform(row[1..], w);
    }
  }

  lemma {:induction false} HeightUniform(col: seq<Mat>, h: nat)
    requires forall p :: 0 <= p < |col| ==> col[p].rows == h
    ensures Height(col) == Offset(|col|, h)
  {
    if |col| > 0 {
      HeightUniform(col[1..], h);
    }
  }

  /** Entry `(i, j)` of block `q` is entry `(i, q * w + j)` of the stacked row. */
  lemma {:induction false} HStackAt(row: seq<Mat>, h: nat, w: nat, q: nat, i: nat, j: nat)
    requires forall k :: 0 <= k < |row| ==> row[k].rows == h && row[k].cols == w
    requires q < |row| && i < h && j < w
    ensures HStack(row).cols == Offset(|row|, w)
    ensures Offset(q, w) + j < Offset(|row|, w) && HStack(row).cells[i][Offset(q, w) + j] == row[q].cells[i][j]
    decreases |row|
  {
    WidthUniform(row, w);
    OffsetMono(q + 1, |row|, w);
    if q > 0 {
      HStackAt(row[1..], h, w, q - 1, i, j);
    }
  }

  /** Row `i` of block `p` is row `p * h + i` of the stacked column. */
  lemma {:induction false} VStackAt(col: seq<Mat>, h: nat, p: nat, i: nat)
    requires |col| > 0 && SameWidth(col)
    requires forall k :: 0 <= k < |col| ==> col[k].rows == h
    requires p < |col| && i < h
    ensures VStack(col).rows == Offset(|col|, h)
    ensures Offset(p, h) + i < Offset(|col|, h) && VStack(col).cells[Offset(p, h) + i] == col[p].cells[i]
    decreases |col|
  {
    HeightUniform(col, h);
    OffsetMono(p + 1, |col|, h);
    if p > 0 {
      VStackAt(col[1..], h, p - 1, i);
    }
  }

  /** A grid of `m` by `n` equal `h` by `w` blocks can be combined; the result
      is `m * h` by `n * w`. */
  lemma GridCombinable(grid: seq<seq<Mat>>, m: nat, n: nat, h: nat, w: nat)
    requires IsGrid(grid, m, n, h, w) && m > 0 && n > 0
    ensures Combinable(grid)
    ensures Combine(grid).rows == Offset(m, h) && Combine(grid).cols == Offset(n, w)
  {
    forall p | 0 <= p < m
      ensures Width(grid[p]) == Offset(n, w)
    {
      WidthUniform(grid[p], w);
    }
    HeightUniform(StackedRows(grid), h);
  }

  /** Entry `(i, j)` of block `(p, q)` is entry `(p * h + i, q * w + j)` of
      the combined matrix. */
  lemma CombineAt(grid: seq<seq<Mat>>, m: nat, n: nat, h: nat, w: nat, p: nat, q: nat, i: nat, j: nat)
    requires IsGrid(grid, m, n, h, w) && p < m && q < n && i < h && j < w
    ensures Combinable(grid) && Combine(grid).rows == Offset(m, h) && Combine(grid).cols == Offset(n, w)
    ensures Offset(p, h) + i < Offset(m, h) && Offset(q, w) + j < Offset(n, w)
    ensures Combine(grid).cells[Offset(p, h) + i][Offset(q, w) + j] == grid[p][q].cells[i][j]
  {
    GridCombinable(grid, m, n, h, w);
    VStackAt(StackedRows(grid), h, p, i);
    HStackAt(grid[p], h, w, q, i, j);
  }

  /** Every position `(r, c)` of a combined `g` by `g` grid of `b` by `b`
      blocks is entry `(i, j)` of one block `(p, q)`. */
  lemma CombineAtPosition(grid: seq<seq<Mat>>, g: nat, b: nat, r: nat, c: nat) returns (p: nat, i: nat, q: nat, j: nat)
    requires IsGrid(grid, g, g, b, b) && r < Offset(g, b) && c < Offset(g, b)
    ensures Combinable(grid) && Combine(grid).rows == Offset(g, b) && Combine(grid).cols == Offset(g, b)
    ensures p < g && q < g && i < b && j < b && r == Offset(p, b) + i && c == Offset(q, b) + j
    ensures Combine(grid).cells[r][c] == grid[p][q].cells[i][j]
  {
    p, i := Decompose(r, b, g);
    q, j := Decompose(c, b, g);
    CombineAt(grid, g, g, b, b, p, q, i, j);
  }

  // ---------------------------------------------------------------------
  // Round trips

  /** The flat list of `g * g` blocks as `g` rows of `g` blocks. */
  function Regroup(blocks: seq<Mat>, g: nat): (grid: seq<seq<Mat>>)
    requires |blocks| == Offset(g, g)
    ensures |grid| == g
    ensures forall p :: 0 <= p < g ==> |grid[p]| == g
  {
    RowsFit(g);
    seq(g, p requires 0 <= p < g => blocks[Offset(p, g) .. Offset(p, g) + g])
  }

  /** Each of the `g` rows of `g` blocks ends inside the list. */
  lemma RowsFit(g: nat)
    ensures forall p :: 0 <= p < g ==> Offset(p, g) + g <= Offset(g, g)
  {
    forall p | 0 <= p < g
      ensures Offset(p, g) + g <= Offset(g, g)
    {
      OffsetMono(p + 1, g, g);
    }
  }

  /** Block `(p, q)` of the regrouped list is element `p * g + q` of the list. */
  lemma RegroupAt(blocks: seq<Mat>, g: nat, p: nat, q: nat)
    requires |blocks| == Offset(g, g) && p < g && q < g
    ensures Offset(p, g) + q < |blocks| && Regroup(blocks, g)[p][q] == blocks[Offset(p, g) + q]
  {
    RowsFit(g);
  }

  /** Regrouping the split gives the grid whose block `(i, j)` is
      `Block(X, g, i, j)`. */
  lemma RegroupSplit(X: Mat, g: nat)
    requires X.rows == X.cols && g > 0
    ensures IsGrid(Regroup(Split(X, g), g), g, g, X.rows / g, X.rows / g)
    ensures forall i, j :: 0 <= i < g && 0 <= j < g ==> Regroup(Split(X, g), g)[i][j] == Block(X, g, i, j)
  {
    forall i, j | 0 <= i < g && 0 <= j < g
      ensures Regroup(Split(X, g), g)[i][j] == Block(X, g, i, j)
    {
      RegroupAt(Split(X, g), g, i, j);
      SplitAt(X, g, i, j);
    }
  }

  /** One entry of the split-then-combine round trip. */
  lemma CombineSplitAt(X: Mat, g: nat, r: nat, c: nat)
    requires X.rows == X.cols && g > 0 && r < Covered(X.rows, g) && c < Covered(X.rows, g)
    ensures Combinable(Regroup(Split(X, g), g))
    ensures Combine(Regroup(Split(X, g), g)).rows == Covered(X.rows, g)
    ensures Combine(Regroup(Split(X, g), g)).cols == Covered(X.rows, g)
    ensures Combine(Regroup(Split(X, g), g)).cells[r][c] == X.cells[r][c]
  {
    var b := X.rows / g;
    var grid := Regroup(Split(X, g), g);
    RegroupSplit(X, g);
    var p, i := Decompose(r, b, g);
    var q, j := Decompose(c, b, g);
    CombineAt(grid, g, g, b, b, p, q, i, j);
    BlockAt(X, g, p, q, i, j);
  }

  /** Splitting and combining again gives back the part of `X` the blocks
      cover, its top-left `Covered(n, g)` square: all of `X` when `g`
      divides `n` (`CombineSplitExact`). */
  lemma CombineSplit(X: Mat, g: nat)
    requires X.rows == X.cols && g > 0
    ensures Combinable(Regroup(Split(X, g), g))
    ensures Combine(Regroup(Split(X, g), g)) == SubMatrix(X, 0, 0, Covered(X.rows, g), Covered(X.rows, g))
  {
    var t := Covered(X.rows, g);
    var grid := Regroup(Split(X, g), g);
    RegroupSplit(X, g);
    GridCombinable(grid, g, g, X.rows / g, X.rows / g);
    var S := SubMatrix(X, 0, 0, t, t);
    forall r, c | 0 <= r < t && 0 <= c < t
      ensures Combine(grid).cells[r][c] == S.cells[r][c]
    {
      CombineSplitAt(X, g, r, c);
    }
    SameEntries(Combine(grid), S);
  }

  /** When `g` divides `n`, combining the split gives back `X` itself. */
  lemma CombineSplitExact(X: Mat, g: nat)
    requires X.rows == X.cols && g > 0 && X.rows % g == 0
    ensures Combinable(Regroup(Split(X, g), g))
    ensures Combine(Regroup(Split(X, g), g)) == X
  {
    CombineSplit(X, g);
    CoveredExact(X.rows, g);
    SameEntries(SubMatrix(X, 0, 0, X.rows, X.rows), X);
  }

  /** A side that `g` divides is covered completely. */
  lemma CoveredExact(n: nat, g: nat)
    requires g > 0 && n % g == 0
    ensures Covered(n, g) == n
  {
    OffsetIsProduct(g, n / g);
  }

  /** Combining a square grid of equal square blocks and splitting the result
      again gives back the same blocks. */
  lemma SplitCombine(grid: seq<seq<Mat>>, g: nat, b: nat)
    requires g > 0 && IsGrid(grid, g, g, b, b)
    ensures Combinable(grid) && Combine(grid).rows == Offset(g, b) && Combine(grid).cols == Offset(g, b)
    ensures Regroup(Split(Combine(grid), g), g) == grid
  {
    GridCombinable(grid, g, g, b, b);
    var C := Combine(grid);
    PiecesExact(g, b);
    var back := Regroup(Split(C, g), g);
    forall p, q | 0 <= p < g && 0 <= q < g
      ensures back[p][q] == grid[p][q]
    {
      RegroupAt(Split(C, g), g, p, q);
      SplitAt(C, g, p, q);
      forall i, j | 0 <= i < b && 0 <= j < b
        ensures back[p][q].cells[i][j] == grid[p][q].cells[i][j]
      {
        BlockAt(C, g, p, q, i, j);
        CombineAt(grid, g, g, b, b, p, q, i, j);
      }
      SameEntries(back[p][q], grid[p][q]);
    }
    forall p | 0 <= p < g
      ensures back[p] == grid[p]
    {
    }
  }
}

=== FILE: kernel.dfy ===
/** The RXTX kernel, Algorithm 1 of arXiv:2505.09814.  From the 16 blocks of
    `X` it forms 26 cross products `m1..m26` of fixed signed sums of blocks, 8
    self products `s1..s8`, and from signed sums of those the 10 blocks of
    `X @ X.T` on and above the block diagonal; the 6 blocks below the diagonal
    are transposes of their mirrors. */
module Kernel {
  import opened Matrices
  import opened Grid

  /** What the kernel accepts: exactly 16 blocks (`rxtx` unpacks the list
      into `X1..X16`), all of one shape so that every sum and product of the
      schedule is defined. */
  predicate KernelInput(blocks: seq<Mat>) {
    |blocks| == 16 &&
    forall k :: 0 <= k < 16 ==> blocks[k].rows == blocks[0].rows && blocks[k].cols == blocks[0].cols
  }

  /** What the kernel accepts, said without singling out the first block:
      16 blocks, any two of which have the same shape. */
  lemma KernelInputPairwise(blocks: seq<Mat>)
    ensures KernelInput(blocks) <==>
      |blocks| == 16 && forall k, l :: 0 <= k < 16 && 0 <= l < 16 ==>
        blocks[k].rows == blocks[l].rows && blocks[k].cols == blocks[l].cols
  {
  }

  /** The 16 input blocks by name, in row-major block order: `X1..X4` form
      block row 1, `X5..X8` block row 2, and so on. */
  datatype Blocks = Blocks(X1: Mat, X2: Mat, X3: Mat, X4: Mat,
                           X5: Mat, X6: Mat, X7: Mat, X8: Mat,
                           X9: Mat, X10: Mat, X11: Mat, X12: Mat,
                           X13: Mat, X14: Mat, X15: Mat, X16: Mat)
  {
    /** All blocks have the shape of `X1`. */
    predicate Uniform() {
      && X2.rows == X1.rows && X2.cols == X1.cols
      && X3.rows == X1.rows && X3.cols == X1.cols
      && X4.rows == X1.rows && X4.cols == X1.cols
      && X5.rows == X1.rows && X5.cols == X1.cols
      && X6.rows == X1.rows && X6.cols == X1.cols
      && X7.rows == X1.rows && X7.cols == X1.cols
      && X8.rows == X1.rows && X8.cols == X1.cols
      && X9.rows == X1.rows && X9.cols == X1.cols
      && X10.rows == X1.rows && X10.cols == X1.cols
      && X11.rows == X1.rows && X11.cols == X1.cols
      && X12.rows == X1.rows && X12.cols == X1.cols
      && X13.rows == X1.rows && X13.cols == X1.cols
      && X14.rows == X1.rows && X14.cols == X1.cols
      && X15.rows == X1.rows && X15.cols == X1.cols
      && X16.rows == X1.rows && X16.cols == X1.cols
    }
  }

  /** The tuple unpacking `X1, ..., X16 = blocks`. */
  function Unpack(blocks: seq<Mat>): (x: Blocks)
    requires KernelInput(blocks)
    ensures x.Uniform()
  {
    Blocks(blocks[0], blocks[1], blocks[2], blocks[3], blocks[4], blocks[5], blocks[6], blocks[7],
           blocks[8], blocks[9], blocks[10], blocks[11], blocks[12], blocks[13], blocks[14], blocks[15])
  }

  // ---------------------------------------------------------------------
  // The multiplication schedule, operation for operation as the Python
  // code writes it.  With `h` by `w` blocks every product is `h` by `h`.

  // Cross products

  function M1(x: Blocks): (m: Mat)
    requires x.Uniform()
    ensures m.rows == x.X1.rows && m.cols == x.X1.rows
  {
    Mul(Add(Sub(Add(Neg(x.X2), x.X3), x.X4), x.X8), Transpose(Add(x.X8, x.X11)))
  }

  function M2(x: Blocks): (m: Mat)
    requires x.Uniform()
    ensures m.rows == x.X1.rows && m.cols == x.X1.rows
  {
    Mul(Add(Sub(Sub(x.X1, x.X5), x.X6), x.X7), Transpose(Add(x.X15, x.X5)))
  }

  function M3(x: Blocks): (m: Mat)
    requires x.Uniform()
    ensures m.rows == x.X1.rows && m.cols == x.X1.rows
  {
    Mul(Add(Neg(x.X2), x.X12), Transpose(Add(Add(Neg(x.X10), x.X16), x.X12)))
  }

  function M4(x: Blocks): (m: Mat)
    requires x.Uniform()
    ensures m.rows == x.X1.rows && m.cols == x.X1.rows
  {
    Mul(Sub(x.X9, x.X6), Transpose(Sub(Add(x.X13, x.X9), x.X14)))
  }

  function M5(x: Blocks): (m: Mat)
    requires x.Uniform()
    ensures m.rows == x.X1.rows && m.cols == x.X1.rows
  {
    Mul(Add(x.X2, x.X11), Transpose(Sub(Add(Neg(x.X6), x.X15), x.X7)))
  }

  function M6(x: Blocks): (m: Mat)
    requires x.Uniform()
    ensures m.rows == x.X1.rows && m.cols == x.X1.rows
  {
    Mul(Add(x.X6, x.X11), Transpose(Sub(Add(x.X6, x.X7), x.X11)))
  }

  function M7(x: Blocks): (m: Mat)
    requires x.Uniform()
    ensures m.rows == x.X1.rows && m.cols == x.X1.rows
  {
    Mul(x.X11, Transpose(Add(x.X6, x.X7)))
  }

  function M8(x: Blocks): (m: Mat)
    requires x.Uniform()
    ensures m.rows == x.X1.rows && m.cols == x.X1.rows
  {
    Mul(x.X2, Transpose(Add(Add(Add(Sub(Add(Sub(Neg(x.X14), x.X10), x.X6), x.X15), x.X7), x.X16), x.X12)))
  }

  function M9(x: Blocks): (m: Mat)
    requires x.Uniform()
    ensures m.rows == x.X1.rows && m.cols == x.X1.rows
  {
    Mul(x.X6, Transpose(Sub(Add(Add(Sub(Sub(Add(x.X13, x.X9), x.X14), x.X10), x.X6), x.X7), x.X11)))
  }

  function M10(x: Blocks): (m: Mat)
    requires x.Uniform()
    ensures m.rows == x.X1.rows && m.cols == x.X1.rows
  {
    Mul(Sub(Add(Add(Add(Sub(x.X2, x.X3), x.X7), x.X11), x.X4), x.X8), Transpose(x.X11))
  }

  function M11(x: Blocks): (m: Mat)
    requires x.Uniform()
    ensures m.rows == x.X1.rows && m.cols == x.X1.rows
  {
    Mul(Sub(Add(x.X5, x.X6), x.X7), Transpose(x.X5))
  }

  function M12(x: Blocks): (m: Mat)
    requires x.Uniform()
    ensures m.rows == x.X1.rows && m.cols == x.X1.rows
  {
    Mul(Add(Sub(x.X2, x.X3), x.X4), Transpose(x.X8))
  }

  function M13(x: Blocks): (m: Mat)
    requires x.Uniform()
    ensures m.rows == x.X1.rows && m.cols == x.X1.rows
  {
    Mul(Add(Sub(Add(Add(Add(Neg(x.X1), x.X5), x.X6), x.X3), x.X7), x.X11), Transpose(x.X15))
  }

  function M14(x: Blocks): (m: Mat)
    requires x.Uniform()
    ensures m.rows == x.X1.rows && m.cols == x.X1.rows
  {
    Mul(Add(Add(Neg(x.X1), x.X5), x.X6), Transpose(Add(Add(x.X13, x.X9), x.X15)))
  }

  function M15(x: Blocks): (m: Mat)
    requires x.Uniform()
    ensures m.rows == x.X1.rows && m.cols == x.X1.rows
  {
    Mul(Sub(Add(x.X2, x.X4), x.X8), Transpose(Add(Add(x.X11, x.X16), x.X12)))
  }

  function M16(x: Blocks): (m: Mat)
    requires x.Uniform()
    ensures m.rows == x.X1.rows && m.cols == x.X1.rows
  {
    Mul(Sub(x.X1, x.X8), Transpose(Sub(x.X9, x.X16)))
  }

  function M17(x: Blocks): (m: Mat)
    requires x.Uniform()
    ensures m.rows == x.X1.rows && m.cols == x.X1.rows
  {
    Mul(x.X12, Transpose(Sub(x.X10, x.X12)))
  }

  function M18(x: Blocks): (m: Mat)
    requires x.Uniform()
    ensures m.rows == x.X1.rows && m.cols == x.X1.rows
  {
    Mul(x.X9, Transpose(Sub(x.X13, x.X14)))
  }

  function M19(x: Blocks): (m: Mat)
    requires x.Uniform()
    ensures m.rows == x.X1.rows && m.cols == x.X1.rows
  {
    Mul(Add(Neg(x.X2), x.X3), Transpose(Add(Add(Neg(x.X15), x.X7), x.X8)))
  }

  function M20(x: Blocks): (m: Mat)
    requires x.Uniform()
    ensures m.rows == x.X1.rows && m.cols == x.X1.rows
  {
    Mul(Sub(Add(x.X5, x.X9), x.X8), Transpose(x.X9))
  }

  function M21(x: Blocks): (m: Mat)
    requires x.Uniform()
    ensures m.rows == x.X1.rows && m.cols == x.X1.rows
  {
    Mul(x.X8, Transpose(Add(Sub(x.X9, x.X8), x.X12)))
  }

  function M22(x: Blocks): (m: Mat)
    requires x.Uniform()
    ensures m.rows == x.X1.rows && m.cols == x.X1.rows
  {
    Mul(Add(Neg(x.X6), x.X7), Transpose(Sub(Add(x.X5, x.X7), x.X11)))
  }

  function M23(x: Blocks): (m: Mat)
    requires x.Uniform()
    ensures m.rows == x.X1.rows && m.cols == x.X1.rows
  {
    Mul(x.X1, Transpose(Add(Sub(x.X13, x.X5), x.X16)))
  }

  function M24(x: Blocks): (m: Mat)
    requires x.Uniform()
    ensures m.rows == x.X1.rows && m.cols == x.X1.rows
  {
    Mul(Add(Add(Neg(x.X1), x.X4), x.X12), Transpose(x.X16))
  }

  function M25(x: Blocks): (m: Mat)
    requires x.Uniform()
    ensures m.rows == x.X1.rows && m.cols == x.X1.rows
  {
    Mul(Add(Add(x.X9, x.X2), x.X10), Transpose(x.X14))
  }

  function M26(x: Blocks): (m: Mat)
    requires x.Uniform()
    ensures m.rows == x.X1.rows && m.cols == x.X1.rows
  {
    Mul(Add(Add(x.X6, x.X10), x.X12), Transpose(x.X10))
  }

  // Self products

  function S1(x: Blocks): (s: Mat)
    requires x.Uniform()
    ensures s.rows == x.X1.rows && s.cols == x.X1.rows
  {
    Mul(x.X1, Transpose(x.X1))
  }

  function S2(x: Blocks): (s: Mat)
    requires x.Uniform()
    ensures s.rows == x.X1.rows && s.cols == x.X1.rows
  {
    Mul(x.X2, Transpose(x.X2))
  }

  function S3(x: Blocks): (s: Mat)
    requires x.Uniform()
    ensures s.rows == x.X1.rows && s.cols == x.X1.rows
  {
    Mul(x.X3, Transpose(x.X3))
  }

  function S4(x: Blocks): (s: Mat)
    requires x.Uniform()
    ensures s.rows == x.X1.rows && s.cols == x.X1.rows
  {
    Mul(x.X4, Transpose(x.X4))
  }

  function S5(x: Blocks): (s: Mat)
    requires x.Uniform()
    ensures s.rows == x.X1.rows && s.cols == x.X1.rows
  {
    Mul(x.X13, Transpose(x.X13))
  }

  function S6(x: Blocks): (s: Mat)
    requires x.Uniform()
    ensures s.rows == x.X1.rows && s.cols == x.X1.rows
  {
    Mul(x.X14, Transpose(x.X14))
  }

  function S7(x: Blocks): (s: Mat)
    requires x.Uniform()
    ensures s.rows == x.X1.rows && s.cols == x.X1.rows
  {
    Mul(x.X15, Transpose(x.X15))
  }

  function S8(x: Blocks): (s: Mat)
    requires x.Uniform()
    ensures s.rows == x.X1.rows && s.cols == x.X1.rows
  {
    Mul(x.X16, Transpose(x.X16))
  }

  // Output blocks on and above the diagonal

  function C11(x: Blocks): (c: Mat)
    requires x.Uniform()
    ensures c.rows == x.X1.rows && c.cols == x.X1.rows
  {
    Add(Add(Add(S1(x), S2(x)), S3(x)), S4(x))
  }

  function C12(x: Blocks): (c: Mat)
    requires x.Uniform()
    ensures c.rows == x.X1.rows && c.cols == x.X1.rows
  {
    Add(Add(Add(Add(Sub(Sub(M2(x), M5(x)), M7(x)), M11(x)), M12(x)), M13(x)), M19(x))
  }

  function C13(x: Blocks): (c: Mat)
    requires x.Uniform()
    ensures c.rows == x.X1.rows && c.cols == x.X1.rows
  {
    Sub(Add(Add(Add(Add(Add(Add(M1(x), M3(x)), M12(x)), M15(x)), M16(x)), M17(x)), M21(x)), M24(x))
  }

  function C14(x: Blocks): (c: Mat)
    requires x.Uniform()
    ensures c.rows == x.X1.rows && c.cols == x.X1.rows
  {
    Add(Add(Sub(Add(Add(Sub(Sub(Sub(Sub(
      M2(x), M3(x)), M5(x)), M7(x)), M8(x)), M11(x)), M13(x)), M17(x)), M23(x)), M24(x))
  }

  function C22(x: Blocks): (c: Mat)
    requires x.Uniform()
    ensures c.rows == x.X1.rows && c.cols == x.X1.rows
  {
    Add(Add(Add(Add(Sub(Add(M1(x), M6(x)), M7(x)), M10(x)), M11(x)), M12(x)), M22(x))
  }

  function C23(x: Blocks): (c: Mat)
    requires x.Uniform()
    ensures c.rows == x.X1.rows && c.cols == x.X1.rows
  {
    Add(Add(Add(Add(Add(Sub(Sub(Add(Sub(
      M1(x), M4(x)), M6(x)), M7(x)), M9(x)), M10(x)), M12(x)), M18(x)), M20(x)), M21(x))
  }

  function C24(x: Blocks): (c: Mat)
    requires x.Uniform()
    ensures c.rows == x.X1.rows && c.cols == x.X1.rows
  {
    Add(Sub(Sub(Add(Add(Add(Add(M2(x), M4(x)), M11(x)), M14(x)), M16(x)), M18(x)), M20(x)), M23(x))
  }

  function C33(x: Blocks): (c: Mat)
    requires x.Uniform()
    ensures c.rows == x.X1.rows && c.cols == x.X1.rows
  {
    Add(Sub(Sub(Add(Add(Sub(M4(x), M6(x)), M7(x)), M9(x)), M17(x)), M18(x)), M26(x))
  }

  function C34(x: Blocks): (c: Mat)
    requires x.Uniform()
    ensures c.rows == x.X1.rows && c.cols == x.X1.rows
  {
    Add(Add(Add(Add(Add(Add(M3(x), M5(x)), M7(x)), M8(x)), M17(x)), M18(x)), M25(x))
  }

  function C44(x: Blocks): (c: Mat)
    requires x.Uniform()
    ensures c.rows == x.X1.rows && c.cols == x.X1.rows
  {
    Add(Add(Add(S5(x), S6(x)), S7(x)), S8(x))
  }

  /** The ten blocks on and above the diagonal, which the kernel computes. */
  datatype Upper = Upper(c11: Mat, c12: Mat, c13: Mat, c14: Mat,
                                   c22: Mat, c23: Mat, c24: Mat,
                                             c33: Mat, c34: Mat,
                                                       c44: Mat)
  {
    /** Every block is `h` by `h`. */
    predicate Square(h: nat) {
      c11.rows == h && c11.cols == h &&
        c12.rows == h && c12.cols == h &&
        c13.rows == h && c13.cols == h &&
        c14.rows == h && c14.cols == h &&
        c22.rows == h && c22.cols == h &&
        c23.rows == h && c23.cols == h &&
        c24.rows == h && c24.cols == h &&
        c33.rows == h && c33.cols == h &&
        c34.rows == h && c34.cols == h &&
        c44.rows == h && c44.cols == h
    }
  }

  /** The schedule: the 26 cross products and 8 Gram products combined into
      the ten blocks on and above the diagonal. */
  function Schedule(x: Blocks): (u: Upper)
    requires x.Uniform()
    ensures u.Square(x.X1.rows)
  {
    Upper(C11(x), C12(x), C13(x), C14(x), C22(x), C23(x), C24(x), C33(x), C34(x), C44(x))
  }

  /** The symmetric completion: `C21 = C12ᵗ`, `C31 = C13ᵗ`, `C32 = C23ᵗ`,
      `C41 = C14ᵗ`, `C42 = C24ᵗ` and `C43 = C34ᵗ`. */
  function Complete(u: Upper): (C: seq<seq<Mat>>)
    requires u.Square(u.c11.rows)
    ensures IsGrid(C, 4, 4, u.c11.rows, u.c11.rows)
  {
    [[u.c11, u.c12, u.c13, u.c14],
     [Transpose(u.c12), u.c22, u.c23, u.c24],
     [Transpose(u.c13), Transpose(u.c23), u.c33, u.c34],
     [Transpose(u.c14), Transpose(u.c24), Transpose(u.c34), u.c44]]
  }

  /** Off the diagonal, every block of a completed grid is the transpose of
      its mirror, whatever the upper blocks are. */
  lemma CompleteMirrors(u: Upper)
    requires u.Square(u.c11.rows)
    ensures forall p, q :: 0 <= p < 4 && 0 <= q < 4 && p != q ==>
      Complete(u)[q][p] == Transpose(Complete(u)[p][q])
  {
    TransposeInvolution(u.c12); TransposeInvolution(u.c13); TransposeInvolution(u.c14);
    TransposeInvolution(u.c23); TransposeInvolution(u.c24); TransposeInvolution(u.c34);
  }

  /** The kernel `rxtx(blocks)`: the schedule, then the symmetric completion. */
  function Rxtx(blocks: seq<Mat>): (C: seq<seq<Mat>>)
    requires KernelInput(blocks)
    ensures IsGrid(C, 4, 4, blocks[0].rows, blocks[0].rows)
  {
    Complete(Schedule(Unpack(blocks)))
  }

  // ---------------------------------------------------------------------
  // The reference: block (p, q) of X @ X.T computed directly

  /** Output block `(p, q)` (zero-based) computed directly: the sum over `k`
      of block `(p, k)` times the transpose of block `(q, k)`, where block
      `(p, k)` is `blocks[4 * p + k]`. */
  function GramBlock(blocks: seq<Mat>, p: nat, q: nat): (G: Mat)
    requires KernelInput(blocks) && p < 4 && q < 4
    ensures G.rows == blocks[0].rows && G.cols == blocks[0].rows
  {
    Add(Add(Add(
      Mul(blocks[4 * p], Transpose(blocks[4 * q])),
      Mul(blocks[4 * p + 1], Transpose(blocks[4 * q + 1]))),
      Mul(blocks[4 * p + 2], Transpose(blocks[4 * q + 2]))),
      Mul(blocks[4 * p + 3], Transpose(blocks[4 * q + 3])))
  }

  /** Entry `(i, j)` of the reference block is a sum of four row products. */
  lemma GramBlockAt(blocks: seq<Mat>, p: nat, q: nat, i: nat, j: nat)
    requires KernelInput(blocks) && p < 4 && q < 4 && i < blocks[0].rows && j < blocks[0].rows
    ensures GramBlock(blocks, p, q).cells[i][j] ==
      RowDot(blocks[4 * p], blocks[4 * q], i, j) + RowDot(blocks[4 * p + 1], blocks[4 * q + 1], i, j)
      + RowDot(blocks[4 * p + 2], blocks[4 * q + 2], i, j) + RowDot(blocks[4 * p + 3], blocks[4 * q + 3], i, j)
  {
    MulTransposeAt(blocks[4 * p], blocks[4 * q], i, j);
    MulTransposeAt(blocks[4 * p + 1], blocks[4 * q + 1], i, j);
    MulTransposeAt(blocks[4 * p + 2], blocks[4 * q + 2], i, j);
    MulTransposeAt(blocks[4 * p + 3], blocks[4 * q + 3], i, j);
  }

  /** Transposing reference block `(p, q)` gives reference block `(q, p)`. */
  lemma GramBlockTranspose(blocks: seq<Mat>, p: nat, q: nat)
    requires KernelInput(blocks) && p < 4 && q < 4
    ensures Transpose(GramBlock(blocks, p, q)) == GramBlock(blocks, q, p)
  {
    var P0, P1, P2, P3 :=
      Mul(blocks[4 * p], Transpose(blocks[4 * q])), Mul(blocks[4 * p + 1], Transpose(blocks[4 * q + 1])),
      Mul(blocks[4 * p + 2], Transpose(blocks[4 * q + 2])), Mul(blocks[4 * p + 3], Transpose(blocks[4 * q + 3]));
    TransposeOfSum(Add(Add(P0, P1), P2), P3);
    TransposeOfSum(Add(P0, P1), P2);
    TransposeOfSum(P0, P1);
    TransposeOfProduct(blocks[4 * p], blocks[4 * q]);
    TransposeOfProduct(blocks[4 * p + 1], blocks[4 * q + 1]);
    TransposeOfProduct(blocks[4 * p + 2], blocks[4 * q + 2]);
    TransposeOfProduct(blocks[4 * p + 3], blocks[4 * q + 3]);
  }

  /** The reference grid: block `(p, q)` is reference block `(p, q)`. */
  function GramGrid(blocks: seq<Mat>): (G: seq<seq<Mat>>)
    requires KernelInput(blocks)
    ensures IsGrid(G, 4, 4, blocks[0].rows, blocks[0].rows)
  {
    seq(4, p requires 0 <= p < 4 => seq(4, q requires 0 <= q < 4 => GramBlock(blocks, p, q)))
  }

  /** Indexing the reference grid at any position gives that reference block. */
  lemma GramGridAt(blocks: seq<Mat>, p: nat, q: nat)
    requires KernelInput(blocks) && p < 4 && q < 4
    ensures GramGrid(blocks)[p][q] == GramBlock(blocks, p, q)
  {
  }

  /** The reference values of the ten upper blocks. */
  function GramUpper(blocks: seq<Mat>): (u: Upper)
    requires KernelInput(blocks)
    ensures u.Square(blocks[0].rows)
  {
    Upper(GramBlock(blocks, 0, 0), GramBlock(blocks, 0, 1), GramBlock(blocks, 0, 2), GramBlock(blocks, 0, 3),
          GramBlock(blocks, 1, 1), GramBlock(blocks, 1, 2), GramBlock(blocks, 1, 3),
          GramBlock(blocks, 2, 2), GramBlock(blocks, 2, 3), GramBlock(blocks, 3, 3))
  }

  // ---------------------------------------------------------------------
  // Each cross product, entry by entry, is a signed sum of row products
  // RowDot(Xk, Xl, i, j), the entries (i, j) of Xk @ Xl.T

  lemma M1At(x: Blocks, i: nat, j: nat)
    requires x.Uniform() && i < x.X1.rows && j < x.X1.rows
    ensures M1(x).cells[i][j] ==
      -RowDot(x.X2, x.X8, i, j) - RowDot(x.X2, x.X11, i, j)
      + RowDot(x.X3, x.X8, i, j) + RowDot(x.X3, x.X11, i, j)
      - RowDot(x.X4, x.X8, i, j) - RowDot(x.X4, x.X11, i, j)
      + RowDot(x.X8, x.X8, i, j) + RowDot(x.X8, x.X11, i, j)
  {
    DotBilinear();
    MulTransposeLaw();
  }

  lemma M2At(x: Blocks, i: nat, j: nat)
    requires x.Uniform() && i < x.X1.rows && j < x.X1.rows
    ensures M2(x).cells[i][j] ==
      RowDot(x.X1, x.X15, i, j) + RowDot(x.X1, x.X5, i, j)
      - RowDot(x.X5, x.X15, i, j) - RowDot(x.X5, x.X5, i, j)
      - RowDot(x.X6, x.X15, i, j) - RowDot(x.X6, x.X5, i, j)
      + RowDot(x.X7, x.X15, i, j) + RowDot(x.X7, x.X5, i, j)
  {
    DotBilinear();
    MulTransposeLaw();
  }

  lemma M3At(x: Blocks, i: nat, j: nat)
    requires x.Uniform() && i < x.X1.rows && j < x.X1.rows
    ensures M3(x).cells[i][j] ==
      RowDot(x.X2, x.X10, i, j) - RowDot(x.X2, x.X16, i, j)
      - RowDot(x.X2, x.X12, i, j) - RowDot(x.X12, x.X10, i, j)
      + RowDot(x.X12, x.X16, i, j) + RowDot(x.X12, x.X12, i, j)
  {
    DotBilinear();
    MulTransposeLaw();
  }

  lemma M4At(x: Blocks, i: nat, j: nat)
    requires x.Uniform() && i < x.X1.rows && j < x.X1.rows
    ensures M4(x).cells[i][j] ==
      RowDot(x.X9, x.X13, i, j) + RowDot(x.X9, x.X9, i, j)
      - RowDot(x.X9, x.X14, i, j) - RowDot(x.X6, x.X13, i, j)
      - RowDot(x.X6, x.X9, i, j) + RowDot(x.X6, x.X14, i, j)
  {
    DotBilinear();
    MulTransposeLaw();
  }

  lemma M5At(x: Blocks, i: nat, j: nat)
    requires x.Uniform() && i < x.X1.rows && j < x.X1.rows
    ensures M5(x).cells[i][j] ==
      -RowDot(x.X2, x.X6, i, j) + RowDot(x.X2, x.X15, i, j)
      - RowDot(x.X2, x.X7, i, j) - RowDot(x.X11, x.X6, i, j)
      + RowDot(x.X11, x.X15, i, j) - RowDot(x.X11, x.X7, i, j)
  {
    DotBilinear();
    MulTransposeLaw();
  }

  lemma M6At(x: Blocks, i: nat, j: nat)
    requires x.Uniform() && i < x.X1.rows && j < x.X1.rows
    ensures M6(x).cells[i][j] ==
      RowDot(x.X6, x.X6, i, j) + RowDot(x.X6, x.X7, i, j)
      - RowDot(x.X6, x.X11, i, j) + RowDot(x.X11, x.X6, i, j)
      + RowDot(x.X11, x.X7, i, j) - RowDot(x.X11, x.X11, i, j)
  {
    DotBilinear();
    MulTransposeLaw();
  }

  lemma M7At(x: Blocks, i: nat, j: nat)
    requires x.Uniform() && i < x.X1.rows && j < x.X1.rows
    ensures M7(x).cells[i][j] ==
      RowDot(x.X11, x.X6, i, j) + RowDot(x.X11, x.X7, i, j)
  {
    DotBilinear();
    MulTransposeLaw();
  }

  lemma M8At(x: Blocks, i: nat, j: nat)
    requires x.Uniform() && i < x.X1.rows && j < x.X1.rows
    ensures M8(x).cells[i][j] ==
      -RowDot(x.X2, x.X14, i, j) - RowDot(x.X2, x.X10, i, j)
      + RowDot(x.X2, x.X6, i, j) - RowDot(x.X2, x.X15, i, j)
      + RowDot(x.X2, x.X7, i, j) + RowDot(x.X2, x.X16, i, j)
      + RowDot(x.X2, x.X12, i, j)
  {
    DotBilinear();
    MulTransposeLaw();
  }

  lemma M9At(x: Blocks, i: nat, j: nat)
    requires x.Uniform() && i < x.X1.rows && j < x.X1.rows
    ensures M9(x).cells[i][j] ==
      RowDot(x.X6, x.X13, i, j) + RowDot(x.X6, x.X9, i, j)
      - RowDot(x.X6, x.X14, i, j) - RowDot(x.X6, x.X10, i, j)
      + RowDot(x.X6, x.X6, i, j) + RowDot(x.X6, x.X7, i, j)
      - RowDot(x.X6, x.X11, i, j)
  {
    DotBilinear();
    MulTransposeLaw();
  }

  lemma M10At(x: Blocks, i: nat, j: nat)
    requires x.Uniform() && i < x.X1.rows && j < x.X1.rows
    ensures M10(x).cells[i][j] ==
      RowDot(x.X2, x.X11, i, j) - RowDot(x.X3, x.X11, i, j)
      + RowDot(x.X7, x.X11, i, j) + RowDot(x.X11, x.X11, i, j)
      + RowDot(x.X4, x.X11, i, j) - RowDot(x.X8, x.X11, i, j)
  {
    DotBilinear();
    MulTransposeLaw();
  }

  lemma M11At(x: Blocks, i: nat, j: nat)
    requires x.Uniform() && i < x.X1.rows && j < x.X1.rows
    ensures M11(x).cells[i][j] ==
      RowDot(x.X5, x.X5, i, j) + RowDot(x.X6, x.X5, i, j)
      - RowDot(x.X7, x.X5, i, j)
  {
    DotBilinear();
    MulTransposeLaw();
  }

  lemma M12At(x: Blocks, i: nat, j: nat)
    requires x.Uniform() && i < x.X1.rows && j < x.X1.rows
    ensures M12(x).cells[i][j] ==
      RowDot(x.X2, x.X8, i, j) - RowDot(x.X3, x.X8, i, j)
      + RowDot(x.X4, x.X8, i, j)
  {
    DotBilinear();
    MulTransposeLaw();
  }

  lemma M13At(x: Blocks, i: nat, j: nat)
    requires x.Uniform() && i < x.X1.rows && j < x.X1.rows
    ensures M13(x).cells[i][j] ==
      -RowDot(x.X1, x.X15, i, j) + RowDot(x.X5, x.X15, i, j)
      + RowDot(x.X6, x.X15, i, j) + RowDot(x.X3, x.X15, i, j)
      - RowDot(x.X7, x.X15, i, j) + RowDot(x.X11, x.X15, i, j)
  {
    DotBilinear();
    MulTransposeLaw();
  }

  lemma M14At(x: Blocks, i: nat, j: nat)
    requires x.Uniform() && i < x.X1.rows && j < x.X1.rows
    ensures M14(x).cells[i][j] ==
      -RowDot(x.X1, x.X13, i, j) - RowDot(x.X1, x.X9, i, j)
      - RowDot(x.X1, x.X15, i, j) + RowDot(x.X5, x.X13, i, j)
      + RowDot(x.X5, x.X9, i, j) + RowDot(x.X5, x.X15, i, j)
      + RowDot(x.X6, x.X13, i, j) + RowDot(x.X6, x.X9, i, j)
      + RowDot(x.X6, x.X15, i, j)
  {
    DotBilinear();
    MulTransposeLaw();
  }

  lemma M15At(x: Blocks, i: nat, j: nat)
    requires x.Uniform() && i < x.X1.rows && j < x.X1.rows
    ensures M15(x).cells[i][j] ==
      RowDot(x.X2, x.X11, i, j) + RowDot(x.X2, x.X16, i, j)
      + RowDot(x.X2, x.X12, i, j) + RowDot(x.X4, x.X11, i, j)
      + RowDot(x.X4, x.X16, i, j) + RowDot(x.X4, x.X12, i, j)
      - RowDot(x.X8, x.X11, i, j) - RowDot(x.X8, x.X16, i, j)
      - RowDot(x.X8, x.X12, i, j)
  {
    DotBilinear();
    MulTransposeLaw();
  }

  lemma M16At(x: Blocks, i: nat, j: nat)
    requires x.Uniform() && i < x.X1.rows && j < x.X1.rows
    ensures M16(x).cells[i][j] ==
      RowDot(x.X1, x.X9, i, j) - RowDot(x.X1, x.X16, i, j)
      - RowDot(x.X8, x.X9, i, j) + RowDot(x.X8, x.X16, i, j)
  {
    DotBilinear();
    MulTransposeLaw();
  }

  lemma M17At(x: Blocks, i: nat, j: nat)
    requires x.Uniform() && i < x.X1.rows && j < x.X1.rows
    ensures M17(x).cells[i][j] ==
      RowDot(x.X12, x.X10, i, j) - RowDot(x.X12, x.X12, i, j)
  {
    DotBilinear();
    MulTransposeLaw();
  }

  lemma M18At(x: Blocks, i: nat, j: nat)
    requires x.Uniform() && i < x.X1.rows && j < x.X1.rows
    ensures M18(x).cells[i][j] ==
      RowDot(x.X9, x.X13, i, j) - RowDot(x.X9, x.X14, i, j)
  {
    DotBilinear();
    MulTransposeLaw();
  }

  lemma M19At(x: Blocks, i: nat, j: nat)
    requires x.Uniform() && i < x.X1.rows && j < x.X1.rows
    ensures M19(x).cells[i][j] ==
      RowDot(x.X2, x.X15, i, j) - RowDot(x.X2, x.X7, i, j)
      - RowDot(x.X2, x.X8, i, j) - RowDot(x.X3, x.X15, i, j)
      + RowDot(x.X3, x.X7, i, j) + RowDot(x.X3, x.X8, i, j)
  {
    DotBilinear();
    MulTransposeLaw();
  }

  lemma M20At(x: Blocks, i: nat, j: nat)
    requires x.Uniform() && i < x.X1.rows && j < x.X1.rows
    ensures M20(x).cells[i][j] ==
      RowDot(x.X5, x.X9, i, j) + RowDot(x.X9, x.X9, i, j)
      - RowDot(x.X8, x.X9, i, j)
  {
    DotBilinear();
    MulTransposeLaw();
  }

  lemma M21At(x: Blocks, i: nat, j: nat)
    requires x.Uniform() && i < x.X1.rows && j < x.X1.rows
    ensures M21(x).cells[i][j] ==
      RowDot(x.X8, x.X9, i, j) - RowDot(x.X8, x.X8, i, j)
      + RowDot(x.X8, x.X12, i, j)
  {
    DotBilinear();
    MulTransposeLaw();
  }

  lemma M22At(x: Blocks, i: nat, j: nat)
    requires x.Uniform() && i < x.X1.rows && j < x.X1.rows
    ensures M22(x).cells[i][j] ==
      -RowDot(x.X6, x.X5, i, j) - RowDot(x.X6, x.X7, i, j)
      + RowDot(x.X6, x.X11, i, j) + RowDot(x.X7, x.X5, i, j)
      + RowDot(x.X7, x.X7, i, j) - RowDot(x.X7, x.X11, i, j)
  {
    DotBilinear();
    MulTransposeLaw();
  }

  lemma M23At(x: Blocks, i: nat, j: nat)
    requires x.Uniform() && i < x.X1.rows && j < x.X1.rows
    ensures M23(x).cells[i][j] ==
      RowDot(x.X1, x.X13, i, j) - RowDot(x.X1, x.X5, i, j)
      + RowDot(x.X1, x.X16, i, j)
  {
    DotBilinear();
    MulTransposeLaw();
  }

  lemma M24At(x: Blocks, i: nat, j: nat)
    requires x.Uniform() && i < x.X1.rows && j < x.X1.rows
    ensures M24(x).cells[i][j] ==
      -RowDot(x.X1, x.X16, i, j) + RowDot(x.X4, x.X16, i, j)
      + RowDot(x.X12, x.X16, i, j)
  {
    DotBilinear();
    MulTransposeLaw();
  }

  lemma M25At(x: Blocks, i: nat, j: nat)
    requires x.Uniform() && i < x.X1.rows && j < x.X1.rows
    ensures M25(x).cells[i][j] ==
      RowDot(x.X9, x.X14, i, j) + RowDot(x.X2, x.X14, i, j)
      + RowDot(x.X10, x.X14, i, j)
  {
    DotBilinear();
    MulTransposeLaw();
  }

  lemma M26At(x: Blocks, i: nat, j: nat)
    requires x.Uniform() && i < x.X1.rows && j < x.X1.rows
    ensures M26(x).cells[i][j] ==
      RowDot(x.X6, x.X10, i, j) + RowDot(x.X10, x.X10, i, j)
      + RowDot(x.X12, x.X10, i, j)
  {
    DotBilinear();
    MulTransposeLaw();
  }

  // ---------------------------------------------------------------------
  // Each computed output block equals its reference block

  lemma C11At(blocks: seq<Mat>, i: nat, j: nat)
    requires KernelInput(blocks) && i < blocks[0].rows && j < blocks[0].rows
    ensures C11(Unpack(blocks)).cells[i][j] == GramBlock(blocks, 0, 0).cells[i][j]
  {
    var x := Unpack(blocks);
    MulTransposeAt(x.X1, x.X1, i, j); MulTransposeAt(x.X2, x.X2, i, j);
    MulTransposeAt(x.X3, x.X3, i, j); MulTransposeAt(x.X4, x.X4, i, j);
    GramBlockAt(blocks, 0, 0, i, j);
  }

  lemma C11IsGram(blocks: seq<Mat>)
    requires KernelInput(blocks)
    ensures C11(Unpack(blocks)) == GramBlock(blocks, 0, 0)
  {
    forall i, j | 0 <= i < blocks[0].rows && 0 <= j < blocks[0].rows
      ensures C11(Unpack(blocks)).cells[i][j] == GramBlock(blocks, 0, 0).cells[i][j]
    {
      C11At(blocks, i, j);
    }
    SameEntries(C11(Unpack(blocks)), GramBlock(blocks, 0, 0));
  }

  lemma C12At(blocks: seq<Mat>, i: nat, j: nat)
    requires KernelInput(blocks) && i < blocks[0].rows && j < blocks[0].rows
    ensures C12(Unpack(blocks)).cells[i][j] == GramBlock(blocks, 0, 1).cells[i][j]
  {
    var x := Unpack(blocks);
    M2At(x, i, j); M5At(x, i, j); M7At(x, i, j); M11At(x, i, j); M12At(x, i, j);
    M13At(x, i, j); M19At(x, i, j);
    GramBlockAt(blocks, 0, 1, i, j);
  }

  lemma C12IsGram(blocks: seq<Mat>)
    requires KernelInput(blocks)
    ensures C12(Unpack(blocks)) == GramBlock(blocks, 0, 1)
  {
    forall i, j | 0 <= i < blocks[0].rows && 0 <= j < blocks[0].rows
      ensures C12(Unpack(blocks)).cells[i][j] == GramBlock(blocks, 0, 1).cells[i][j]
    {
      C12At(blocks, i, j);
    }
    SameEntries(C12(Unpack(blocks)), GramBlock(blocks, 0, 1));
  }

  lemma C13At(blocks: seq<Mat>, i: nat, j: nat)
    requires KernelInput(blocks) && i < blocks[0].rows && j < blocks[0].rows
    ensures C13(Unpack(blocks)).cells[i][j] == GramBlock(blocks, 0, 2).cells[i][j]
  {
    var x := Unpack(blocks);
    M1At(x, i, j); M3At(x, i, j); M12At(x, i, j); M15At(x, i, j); M16At(x, i, j);
    M17At(x, i, j); M21At(x, i, j); M24At(x, i, j);
    GramBlockAt(blocks, 0, 2, i, j);
  }

  lemma C13IsGram(blocks: seq<Mat>)
    requires KernelInput(blocks)
    ensures C13(Unpack(blocks)) == GramBlock(blocks, 0, 2)
  {
    forall i, j | 0 <= i < blocks[0].rows && 0 <= j < blocks[0].rows
      ensures C13(Unpack(blocks)).cells[i][j] == GramBlock(blocks, 0, 2).cells[i][j]
    {
      C13At(blocks, i, j);
    }
    SameEntries(C13(Unpack(blocks)), GramBlock(blocks, 0, 2));
  }

  lemma C14At(blocks: seq<Mat>, i: nat, j: nat)
    requires KernelInput(blocks) && i < blocks[0].rows && j < blocks[0].rows
    ensures C14(Unpack(blocks)).cells[i][j] == GramBlock(blocks, 0, 3).cells[i][j]
  {
    var x := Unpack(blocks);
    M2At(x, i, j); M3At(x, i, j); M5At(x, i, j); M7At(x, i, j); M8At(x, i, j); M11At(x, i, j);
    M13At(x, i, j); M17At(x, i, j); M23At(x, i, j); M24At(x, i, j);
    GramBlockAt(blocks, 0, 3, i, j);
  }

  lemma C14IsGram(blocks: seq<Mat>)
    requires KernelInput(blocks)
    ensures C14(Unpack(blocks)) == GramBlock(blocks, 0, 3)
  {
    forall i, j | 0 <= i < blocks[0].rows && 0 <= j < blocks[0].rows
      ensures C14(Unpack(blocks)).cells[i][j] == GramBlock(blocks, 0, 3).cells[i][j]
    {
      C14At(blocks, i, j);
    }
    SameEntries(C14(Unpack(blocks)), GramBlock(blocks, 0, 3));
  }

  lemma C22At(blocks: seq<Mat>, i: nat, j: nat)
    requires KernelInput(blocks) && i < blocks[0].rows && j < blocks[0].rows
    ensures C22(Unpack(blocks)).cells[i][j] == GramBlock(blocks, 1, 1).cells[i][j]
  {
    var x := Unpack(blocks);
    M1At(x, i, j); M6At(x, i, j); M7At(x, i, j); M10At(x, i, j); M11At(x, i, j);
    M12At(x, i, j); M22At(x, i, j);
    GramBlockAt(blocks, 1, 1, i, j);
  }

  lemma C22IsGram(blocks: seq<Mat>)
    requires KernelInput(blocks)
    ensures C22(Unpack(blocks)) == GramBlock(blocks, 1, 1)
  {
    forall i, j | 0 <= i < blocks[0].rows && 0 <= j < blocks[0].rows
      ensures C22(Unpack(blocks)).cells[i][j] == GramBlock(blocks, 1, 1).cells[i][j]
    {
      C22At(blocks, i, j);
    }
    SameEntries(C22(Unpack(blocks)), GramBlock(blocks, 1, 1));
  }

  lemma C23At(blocks: seq<Mat>, i: nat, j: nat)
    requires KernelInput(blocks) && i < blocks[0].rows && j < blocks[0].rows
    ensures C23(Unpack(blocks)).cells[i][j] == GramBlock(blocks, 1, 2).cells[i][j]
  {
    var x := Unpack(blocks);
    M1At(x, i, j); M4At(x, i, j); M6At(x, i, j); M7At(x, i, j); M9At(x, i, j); M10At(x, i, j);
    M12At(x, i, j); M18At(x, i, j); M20At(x, i, j); M21At(x, i, j);
    GramBlockAt(blocks, 1, 2, i, j);
  }

  lemma C23IsGram(blocks: seq<Mat>)
    requires KernelInput(blocks)
    ensures C23(Unpack(blocks)) == GramBlock(blocks, 1, 2)
  {
    forall i, j | 0 <= i < blocks[0].rows && 0 <= j < blocks[0].rows
      ensures C23(Unpack(blocks)).cells[i][j] == GramBlock(blocks, 1, 2).cells[i][j]
    {
      C23At(blocks, i, j);
    }
    SameEntries(C23(Unpack(blocks)), GramBlock(blocks, 1, 2));
  }

  lemma C24At(blocks: seq<Mat>, i: nat, j: nat)
    requires KernelInput(blocks) && i < blocks[0].rows && j < blocks[0].rows
    ensures C24(Unpack(blocks)).cells[i][j] == GramBlock(blocks, 1, 3).cells[i][j]
  {
    var x := Unpack(blocks);
    M2At(x, i, j); M4At(x, i, j); M11At(x, i, j); M14At(x, i, j); M16At(x, i, j);
    M18At(x, i, j); M20At(x, i, j); M23At(x, i, j);
    GramBlockAt(blocks, 1, 3, i, j);
  }

  lemma C24IsGram(blocks: seq<Mat>)
    requires KernelInput(blocks)
    ensures C24(Unpack(blocks)) == GramBlock(blocks, 1, 3)
  {
    forall i, j | 0 <= i < blocks[0].rows && 0 <= j < blocks[0].rows
      ensures C24(Unpack(blocks)).cells[i][j] == GramBlock(blocks, 1, 3).cells[i][j]
    {
      C24At(blocks, i, j);
    }
    SameEntries(C24(Unpack(blocks)), GramBlock(blocks, 1, 3));
  }

  lemma C33At(blocks: seq<Mat>, i: nat, j: nat)
    requires KernelInput(blocks) && i < blocks[0].rows && j < blocks[0].rows
    ensures C33(Unpack(blocks)).cells[i][j] == GramBlock(blocks, 2, 2).cells[i][j]
  {
    var x := Unpack(blocks);
    M4At(x, i, j); M6At(x, i, j); M7At(x, i, j); M9At(x, i, j); M17At(x, i, j); M18At(x, i, j);
    M26At(x, i, j);
    GramBlockAt(blocks, 2, 2, i, j);
  }

  lemma C33IsGram(blocks: seq<Mat>)
    requires KernelInput(blocks)
    ensures C33(Unpack(blocks)) == GramBlock(blocks, 2, 2)
  {
    forall i, j | 0 <= i < blocks[0].rows && 0 <= j < blocks[0].rows
      ensures C33(Unpack(blocks)).cells[i][j] == GramBlock(blocks, 2, 2).cells[i][j]
    {
      C33At(blocks, i, j);
    }
    SameEntries(C33(Unpack(blocks)), GramBlock(blocks, 2, 2));
  }

  lemma C34At(blocks: seq<Mat>, i: nat, j: nat)
    requires KernelInput(blocks) && i < blocks[0].rows && j < blocks[0].rows
    ensures C34(Unpack(blocks)).cells[i][j] == GramBlock(blocks, 2, 3).cells[i][j]
  {
    var x := Unpack(blocks);
    M3At(x, i, j); M5At(x, i, j); M7At(x, i, j); M8At(x, i, j); M17At(x, i, j); M18At(x, i, j);
    M25At(x, i, j);
    GramBlockAt(blocks, 2, 3, i, j);
  }

  lemma C34IsGram(blocks: seq<Mat>)
    requires KernelInput(blocks)
    ensures C34(Unpack(blocks)) == GramBlock(blocks, 2, 3)
  {
    forall i, j | 0 <= i < blocks[0].rows && 0 <= j < blocks[0].rows
      ensures C34(Unpack(blocks)).cells[i][j] == GramBlock(blocks, 2, 3).cells[i][j]
    {
      C34At(blocks, i, j);
    }
    SameEntries(C34(Unpack(blocks)), GramBlock(blocks, 2, 3));
  }

  lemma C44At(blocks: seq<Mat>, i: nat, j: nat)
    requires KernelInput(blocks) && i < blocks[0].rows && j < blocks[0].rows
    ensures C44(Unpack(blocks)).cells[i][j] == GramBlock(blocks, 3, 3).cells[i][j]
  {
    var x := Unpack(blocks);
    MulTransposeAt(x.X13, x.X13, i, j); MulTransposeAt(x.X14, x.X14, i, j);
    MulTransposeAt(x.X15, x.X15, i, j); MulTransposeAt(x.X16, x.X16, i, j);
    GramBlockAt(blocks, 3, 3, i, j);
  }

  lemma C44IsGram(blocks: seq<Mat>)
    requires KernelInput(blocks)
    ensures C44(Unpack(blocks)) == GramBlock(blocks, 3, 3)
  {
    forall i, j | 0 <= i < blocks[0].rows && 0 <= j < blocks[0].rows
      ensures C44(Unpack(blocks)).cells[i][j] == GramBlock(blocks, 3, 3).cells[i][j]
    {
      C44At(blocks, i, j);
    }
    SameEntries(C44(Unpack(blocks)), GramBlock(blocks, 3, 3));
  }

  /** The schedule computes the reference value of every upper block. */
  lemma ScheduleIsGram(blocks: seq<Mat>)
    requires KernelInput(blocks)
    ensures Schedule(Unpack(blocks)) == GramUpper(blocks)
  {
    C11IsGram(blocks); C12IsGram(blocks); C13IsGram(blocks); C14IsGram(blocks);
    C22IsGram(blocks); C23IsGram(blocks); C24IsGram(blocks);
    C33IsGram(blocks); C34IsGram(blocks);
    C44IsGram(blocks);
  }

  /** Completing the reference upper blocks gives the whole reference grid,
      because reference blocks mirror each other. */
  lemma CompleteGram(blocks: seq<Mat>)
    requires KernelInput(blocks)
    ensures Complete(GramUpper(blocks)) == GramGrid(blocks)
  {
    GramBlockTranspose(blocks, 0, 1); GramBlockTranspose(blocks, 0, 2); GramBlockTranspose(blocks, 0, 3);
    GramBlockTranspose(blocks, 1, 2); GramBlockTranspose(blocks, 1, 3); GramBlockTranspose(blocks, 2, 3);
    GramGridDisplay(blocks);
  }

  /** The reference grid written out block by block. */
  lemma GramGridDisplay(blocks: seq<Mat>)
    requires KernelInput(blocks)
    ensures GramGrid(blocks) ==
      [[GramBlock(blocks, 0, 0), GramBlock(blocks, 0, 1), GramBlock(blocks, 0, 2), GramBlock(blocks, 0, 3)],
       [GramBlock(blocks, 1, 0), GramBlock(blocks, 1, 1), GramBlock(blocks, 1, 2), GramBlock(blocks, 1, 3)],
       [GramBlock(blocks, 2, 0), GramBlock(blocks, 2, 1), GramBlock(blocks, 2, 2), GramBlock(blocks, 2, 3)],
       [GramBlock(blocks, 3, 0), GramBlock(blocks, 3, 1), GramBlock(blocks, 3, 2), GramBlock(blocks, 3, 3)]]
  {
    var G := GramGrid(blocks);
    assert G[0] == [GramBlock(blocks, 0, 0), GramBlock(blocks, 0, 1), GramBlock(blocks, 0, 2), GramBlock(blocks, 0, 3)];
    assert G[1] == [GramBlock(blocks, 1, 0), GramBlock(blocks, 1, 1), GramBlock(blocks, 1, 2), GramBlock(blocks, 1, 3)];
    assert G[2] == [GramBlock(blocks, 2, 0), GramBlock(blocks, 2, 1), GramBlock(blocks, 2, 2), GramBlock(blocks, 2, 3)];
    assert G[3] == [GramBlock(blocks, 3, 0), GramBlock(blocks, 3, 1), GramBlock(blocks, 3, 2), GramBlock(blocks, 3, 3)];
  }

  /** Main identity of the kernel: its grid is the reference grid, so block
      `(p, q)` of the output is the sum over `k` of `X_{4p+k} @ X_{4q+k}.T`,
      block `(p, q)` of `X @ X.T`. */
  lemma RxtxIsGramGrid(blocks: seq<Mat>)
    requires KernelInput(blocks)
    ensures Rxtx(blocks) == GramGrid(blocks)
  {
    ScheduleIsGram(blocks);
    CompleteGram(blocks);
  }

  /** Every block of the reference grid is the transpose of its mirror. */
  lemma GramGridMirrors(blocks: seq<Mat>)
    requires KernelInput(blocks)
    ensures forall p, q :: 0 <= p < 4 && 0 <= q < 4 ==> GramGrid(blocks)[q][p] == Transpose(GramGrid(blocks)[p][q])
  {
    forall p, q | 0 <= p < 4 && 0 <= q < 4
      ensures GramGrid(blocks)[q][p] == Transpose(GramGrid(blocks)[p][q])
    {
      GramGridAt(blocks, p, q);
      GramGridAt(blocks, q, p);
      GramBlockTranspose(blocks, p, q);
    }
  }

  /** Every block of the output grid, diagonal ones included, is the
      transpose of its mirror. */
  lemma RxtxBlockSymmetric(blocks: seq<Mat>)
    requires KernelInput(blocks)
    ensures forall p, q :: 0 <= p < 4 && 0 <= q < 4 ==> Rxtx(blocks)[q][p] == Transpose(Rxtx(blocks)[p][q])
  {
    RxtxIsGramGrid(blocks);
    GramGridMirrors(blocks);
  }
}

=== FILE: matrices.dfy ===
/** Integer matrices with an explicit shape, and the array operations the
    RXTX code applies to them: elementwise `+`, `-` and unary `-`, matrix
    product `@` and transpose `.T`.  Entries are mathematical integers, so the
    algebraic identities below hold exactly. */
module Matrices {

  /** One row of a matrix. */
  type Vector = seq<int>

  /** A two-dimensional array.  `cells[i][j]` is the entry in row `i` and
      column `j`.  The shape is stored explicitly, as for a 2-D array, so that
      a matrix with no rows still has a number of columns. */
  datatype Matrix = Matrix(rows: nat, cols: nat, cells: seq<seq<int>>)

  /** The cells form a `rows` by `cols` rectangle. */
  predicate WellShaped(m: Matrix) {
    |m.cells| == m.rows && forall i :: 0 <= i < m.rows ==> |m.cells[i]| == m.cols
  }

  /** The matrices of the model: those whose cells fill their shape. */
  type Mat = m: Matrix | WellShaped(m) witness Matrix(0, 0, [])

  /** A matrix equal to its own transpose. */
  predicate IsSymmetric(A: Mat) {
    A.rows == A.cols && forall i, j :: 0 <= i < A.rows && 0 <= j < A.rows ==> A.cells[i][j] == A.cells[j][i]
  }

  // ---------------------------------------------------------------------
  // Vectors

  /** Sum of the products of corresponding entries. */
  function Dot(u: Vector, v: Vector): int
    requires |u| == |v|
  {
    if |u| == 0 then 0 else u[0] * v[0] + Dot(u[1..], v[1..])
  }

  function VAdd(u: Vector, v: Vector): (w: Vector)
    requires |u| == |v|
    ensures |w| == |u|
  {
    seq(|u|, t requires 0 <= t < |u| => u[t] + v[t])
  }

  function VSub(u: Vector, v: Vector): (w: Vector)
    requires |u| == |v|
    ensures |w| == |u|
  {
    seq(|u|, t requires 0 <= t < |u| => u[t] - v[t])
  }

  function VNeg(u: Vector): (w: Vector)
    ensures |w| == |u|
  {
    seq(|u|, t requires 0 <= t < |u| => -u[t])
  }

  /** A row of `n` zeros. */
  function Zeros(n: nat): (z: Vector)
    ensures |z| == n && forall t :: 0 <= t < n ==> z[t] == 0
  {
    seq(n, t => 0)
  }

  // ---------------------------------------------------------------------
  // Matrices

  /** Elementwise sum `A + B` of two matrices of one shape. */
  function Add(A: Mat, B: Mat): (C: Mat)
    requires A.rows == B.rows && A.cols == B.cols
    ensures C.rows == A.rows && C.cols == A.cols
  {
    Matrix(A.rows, A.cols, seq(A.rows, i requires 0 <= i < A.rows => VAdd(A.cells[i], B.cells[i])))
  }

  /** Elementwise difference `A - B` of two matrices of one shape. */
  function Sub(A: Mat, B: Mat): (C: Mat)
    requires A.rows == B.rows && A.cols == B.cols
    ensures C.rows == A.rows && C.cols == A.cols
  {
    Matrix(A.rows, A.cols, seq(A.rows, i requires 0 <= i < A.rows => VSub(A.cells[i], B.cells[i])))
  }

  /** Elementwise negation `-A`. */
  function Neg(A: Mat): (C: Mat)
    ensures C.rows == A.rows && C.cols == A.cols
  {
    Matrix(A.rows, A.cols, seq(A.rows, i requires 0 <= i < A.rows => VNeg(A.cells[i])))
  }

  /** The transpose `A.T`: row `j` of the result is column `j` of `A`. */
  function Transpose(A: Mat): (T: Mat)
    ensures T.rows == A.cols && T.cols == A.rows
    ensures forall i, j :: 0 <= i < A.rows && 0 <= j < A.cols ==> T.cells[j][i] == A.cells[i][j]
  {
    Matrix(A.cols, A.rows,
      seq(A.cols, j requires 0 <= j < A.cols =>
        seq(A.rows, i requires 0 <= i < A.rows => A.cells[i][j])))
  }

  /** Column `j` of `B`. */
  function Column(B: Mat, j: nat): (c: Vector)
    requires j < B.cols
    ensures |c| == B.rows
  {
    seq(B.rows, k requires 0 <= k < B.rows => B.cells[k][j])
  }

  /** The matrix product `A @ B`: entry `(i, j)` is row `i` of `A` dotted
      with column `j` of `B`. */
  function Mul(A: Mat, B: Mat): (C: Mat)
    requires A.cols == B.rows
    ensures C.rows == A.rows && C.cols == B.cols
  {
    Matrix(A.rows, B.cols,
      seq(A.rows, i requires 0 <= i < A.rows =>
        seq(B.cols, j requires 0 <= j < B.cols => Dot(A.cells[i], Column(B, j)))))
  }

  /** Entry `(i, j)` of `A + B` is the sum of the entries `(i, j)`. */
  lemma AddAt(A: Mat, B: Mat, i: nat, j: nat)
    requires A.rows == B.rows && A.cols == B.cols && i < A.rows && j < A.cols
    ensures Add(A, B).cells[i][j] == A.cells[i][j] + B.cells[i][j]
  {
  }

  /** Entry `(i, j)` of `A - B` is the difference of the entries `(i, j)`. */
  lemma SubAt(A: Mat, B: Mat, i: nat, j: nat)
    requires A.rows == B.rows && A.cols == B.cols && i < A.rows && j < A.cols
    ensures Sub(A, B).cells[i][j] == A.cells[i][j] - B.cells[i][j]
  {
  }

  /** Entry `(i, j)` of `-A` is the negated entry `(i, j)`. */
  lemma NegAt(A: Mat, i: nat, j: nat)
    requires i < A.rows && j < A.cols
    ensures Neg(A).cells[i][j] == -A.cells[i][j]
  {
  }

  /** Entry `(i, j)` of `A @ B` is the sum over `k` of `A[i][k] * B[k][j]`,
      written as the dot product of row `i` of `A` with column `j` of `B`. */
  lemma MulAt(A: Mat, B: Mat, i: nat, j: nat)
    requires A.cols == B.rows && i < A.rows && j < B.cols
    ensures |Column(B, j)| == A.cols
    ensures forall k :: 0 <= k < B.rows ==> Column(B, j)[k] == B.cells[k][j]
    ensures Mul(A, B).cells[i][j] == Dot(A.cells[i], Column(B, j))
  {
  }

  /** The `h` by `w` window of `X` whose top-left corner is `(r0, c0)`: the
      slice `X[r0:r0+h, c0:c0+w]`. */
  function SubMatrix(X: Mat, r0: nat, c0: nat, h: nat, w: nat): (S: Mat)
    requires r0 + h <= X.rows && c0 + w <= X.cols
    ensures S.rows == h && S.cols == w
    ensures forall i, j :: 0 <= i < h && 0 <= j < w ==> S.cells[i][j] == X.cells[r0 + i][c0 + j]
  {
    Matrix(h, w, seq(h, i requires 0 <= i < h => X.cells[r0 + i][c0 .. c0 + w]))
  }

  // ---------------------------------------------------------------------
  // Equality

  /** Two matrices of one shape with the same entries are equal. */
  lemma SameEntries(A: Mat, B: Mat)
    requires A.rows == B.rows && A.cols == B.cols
    requires forall i, j :: 0 <= i < A.rows && 0 <= j < A.cols ==> A.cells[i][j] == B.cells[i][j]
    ensures A == B
  {
    forall i | 0 <= i < A.rows
      ensures A.cells[i] == B.cells[i]
    {
      assert forall j :: 0 <= j < A.cols ==> A.cells[i][j] == B.cells[i][j];
    }
  }

  // ---------------------------------------------------------------------
  // The dot product is symmetric and bilinear

  lemma {:induction false} DotSymmetric(u: Vector, v: Vector)
    requires |u| == |v|
    ensures Dot(u, v) == Dot(v, u)
  {
    if |u| > 0 {
      DotSymmetric(u[1..], v[1..]);
    }
  }

  lemma {:induction false} DotAddLeft(u: Vector, v: Vector, w: Vector)
    requires |u| == |v| == |w|
    ensures Dot(VAdd(u, v), w) == Dot(u, w) + Dot(v, w)
  {
    if |u| > 0 {
      assert VAdd(u, v)[1..] == VAdd(u[1..], v[1..]);
      DotAddLeft(u[1..], v[1..], w[1..]);
    }
  }

  lemma {:induction false} DotSubLeft(u: Vector, v: Vector, w: Vector)
    requires |u| == |v| == |w|
    ensures Dot(VSub(u, v), w) == Dot(u, w) - Dot(v, w)
  {
    if |u| > 0 {
      assert VSub(u, v)[1..] == VSub(u[1..], v[1..]);
      DotSubLeft(u[1..], v[1..], w[1..]);
    }
  }

  lemma {:induction false} DotNegLeft(u: Vector, w: Vector)
    requires |u| == |w|
    ensures Dot(VNeg(u), w) == -Dot(u, w)
  {
    if |u| > 0 {
      assert VNeg(u)[1..] == VNeg(u[1..]);
      DotNegLeft(u[1..], w[1..]);
    }
  }

  /** The dot product of two concatenations splits at the seam. */
  lemma {:induction false} DotAppend(u1: Vector, u2: Vector, v1: Vector, v2: Vector)
    requires |u1| == |v1| && |u2| == |v2|
    ensures Dot(u1 + u2, v1 + v2) == Dot(u1, v1) + Dot(u2, v2)
  {
    if |u1| > 0 {
      assert (u1 + u2)[1..] == u1[1..] + u2;
      assert (v1 + v2)[1..] == v1[1..] + v2;
      DotAppend(u1[1..], u2, v1[1..], v2);
    } else {
      assert u1 + u2 == u2;
      assert v1 + v2 == v2;
    }
  }

  /** A row of zeros contributes nothing to a dot product. */
  lemma {:induction false} DotZeros(u: Vector)
    ensures Dot(u, Zeros(|u|)) == 0
  {
    if |u| > 0 {
      assert Zeros(|u|)[1..] == Zeros(|u| - 1);
      DotZeros(u[1..]);
    }
  }

  /** The dot product is linear in each argument.  Stated for all vectors at
      once, so that a proof can expand a product of sums term by term. */
  lemma DotBilinear()
    ensures forall u, v, w {:trigger Dot(VAdd(u, v), w)} ::
      |u| == |v| == |w| ==> Dot(VAdd(u, v), w) == Dot(u, w) + Dot(v, w)
    ensures forall u, v, w {:trigger Dot(VSub(u, v), w)} ::
      |u| == |v| == |w| ==> Dot(VSub(u, v), w) == Dot(u, w) - Dot(v, w)
    ensures forall u, w {:trigger Dot(VNeg(u), w)} ::
      |u| == |w| ==> Dot(VNeg(u), w) == -Dot(u, w)
    ensures forall u, v, w {:trigger Dot(u, VAdd(v, w))} ::
      |u| == |v| == |w| ==> Dot(u, VAdd(v, w)) == Dot(u, v) + Dot(u, w)
    ensures forall u, v, w {:trigger Dot(u, VSub(v, w))} ::
      |u| == |v| == |w| ==> Dot(u, VSub(v, w)) == Dot(u, v) - Dot(u, w)
    ensures forall u, w {:trigger Dot(u, VNeg(w))} ::
      |u| == |w| ==> Dot(u, VNeg(w)) == -Dot(u, w)
  {
    forall u, v, w | |u| == |v| == |w|
      ensures Dot(VAdd(u, v), w) == Dot(u, w) + Dot(v, w)
      ensures Dot(VSub(u, v), w) == Dot(u, w) - Dot(v, w)
      ensures Dot(u, VAdd(v, w)) == Dot(u, v) + Dot(u, w)
      ensures Dot(u, VSub(v, w)) == Dot(u, v) - Dot(u, w)
    {
      DotAddLeft(u, v, w);
      DotSubLeft(u, v, w);
      DotAddLeft(v, w, u);
      DotSubLeft(v, w, u);
      DotSymmetric(u, VAdd(v, w));
      DotSymmetric(u, VSub(v, w));
      DotSymmetric(u, v);
      DotSymmetric(u, w);
    }
    forall u, w | |u| == |w|
      ensures Dot(VNeg(u), w) == -Dot(u, w)
      ensures Dot(u, VNeg(w)) == -Dot(u, w)
    {
      DotNegLeft(u, w);
      DotNegLeft(w, u);
      DotSymmetric(u, VNeg(w));
      DotSymmetric(u, w);
    }
  }

  // ---------------------------------------------------------------------
  // Products with a transpose

  /** Entry `(i, j)` of `A @ B.T` is row `i` of `A` dotted with row `j` of `B`. */
  lemma MulTransposeAt(A: Mat, B: Mat, i: nat, j: nat)
    requires A.cols == B.cols && i < A.rows && j < B.rows
    ensures Mul(A, Transpose(B)).cells[i][j] == Dot(A.cells[i], B.cells[j])
  {
    assert Column(Transpose(B), j) == B.cells[j];
  }

  /** Entry `(i, j)` of `a @ b.T`, written without the product: row `i` of
      `a` dotted with row `j` of `b`. */
  function RowDot(a: Mat, b: Mat, i: nat, j: nat): int
    requires a.cols == b.cols && i < a.rows && j < b.rows
  {
    Dot(a.cells[i], b.cells[j])
  }

  /** `MulTransposeAt` for every pair of matrices and every entry. */
  lemma MulTransposeLaw()
    ensures forall A: Mat, B: Mat, i: nat, j: nat {:trigger Mul(A, Transpose(B)).cells[i][j]} ::
      A.cols == B.cols && i < A.rows && j < B.rows ==>
        Mul(A, Transpose(B)).cells[i][j] == Dot(A.cells[i], B.cells[j])
  {
    forall A: Mat, B: Mat, i: nat, j: nat | A.cols == B.cols && i < A.rows && j < B.rows
      ensures Mul(A, Transpose(B)).cells[i][j] == Dot(A.cells[i], B.cells[j])
    {
      MulTransposeAt(A, B, i, j);
    }
  }

  // ---------------------------------------------------------------------
  // Transpose laws

  /** Transposing twice gives back the matrix. */
  lemma TransposeInvolution(A: Mat)
    ensures Transpose(Transpose(A)) == A
  {
    SameEntries(Transpose(Transpose(A)), A);
  }

  /** The transpose of a sum is the sum of the transposes. */
  lemma TransposeOfSum(A: Mat, B: Mat)
    requires A.rows == B.rows && A.cols == B.cols
    ensures Transpose(Add(A, B)) == Add(Transpose(A), Transpose(B))
  {
    SameEntries(Transpose(Add(A, B)), Add(Transpose(A), Transpose(B)));
  }

  /** `(A @ B.T).T == B @ A.T`. */
  lemma TransposeOfProduct(A: Mat, B: Mat)
    requires A.cols == B.cols
    ensures Transpose(Mul(A, Transpose(B))) == Mul(B, Transpose(A))
  {
    forall i, j | 0 <= i < B.rows && 0 <= j < A.rows
      ensures Transpose(Mul(A, Transpose(B))).cells[i][j] == Mul(B, Transpose(A)).cells[i][j]
    {
      MulTransposeAt(A, B, j, i);
      MulTransposeAt(B, A, i, j);
      DotSymmetric(A.cells[j], B.cells[i]);
    }
    SameEntries(Transpose(Mul(A, Transpose(B))), Mul(B, Transpose(A)));
  }

  /** `X @ X.T` is symmetric. */
  lemma GramIsSymmetric(X: Mat)
    ensures IsSymmetric(Mul(X, Transpose(X)))
  {
    forall i, j | 0 <= i < X.rows && 0 <= j < X.rows
      ensures Mul(X, Transpose(X)).cells[i][j] == Mul(X, Transpose(X)).cells[j][i]
    {
      MulTransposeAt(X, X, i, j);
      MulTransposeAt(X, X, j, i);
      DotSymmetric(X.cells[i], X.cells[j]);
    }
  }
}

=== FILE: padding.dfy ===
/** Zero padding of the input up to a multiple of the block size
    (`pad_matrix` in `src/rxtx.py`). */
module Padding {
  import opened Matrices
  import opened Arith

  /** The padded size: `n` rounded up to a multiple of `bs`.  The code
      computes it as `((n + bs - 1) // bs) * bs`, which `PadToFormula` shows
      is the same number. */
  function PadTo(n: nat, bs: nat): (t: nat)
    requires bs > 0
    ensures t % bs == 0
    ensures n <= t < n + bs
  {
    RoundDown(n + bs - 1, bs);
    (n + bs - 1) - (n + bs - 1) % bs
  }

  /** For non-negative operands Python's `//` and Dafny's `/` agree, so this
      is the code's own expression for the padded size. */
  lemma PadToFormula(n: nat, bs: nat)
    requires bs > 0
    ensures PadTo(n, bs) == ((n + bs - 1) / bs) * bs
  {
    RoundDown(n + bs - 1, bs);
  }

  /** The padded size is the least multiple of `bs` that is at least `n`. */
  lemma PadToLeast(n: nat, bs: nat, m: nat)
    requires bs > 0 && m % bs == 0 && n <= m
    ensures PadTo(n, bs) <= m
  {
    if PadTo(n, bs) > m {
      MultiplesApart(PadTo(n, bs), m, bs);
    }
  }

  /** A size that is already a multiple of `bs` is left as it is. */
  lemma PadToExact(n: nat, bs: nat)
    requires bs > 0 && n % bs == 0
    ensures PadTo(n, bs) == n
  {
    PadToLeast(n, bs, n);
  }

  /** Row `i` of `X` padded to width `w`: the row followed by zeros, or
      all zeros below the last row of `X`. */
  function PadRow(X: Mat, i: nat, w: nat): (r: Vector)
    requires X.cols <= w
    ensures |r| == w
    ensures forall j :: 0 <= j < w ==> r[j] == if i < X.rows && j < X.cols then X.cells[i][j] else 0
  {
    if i < X.rows then X.cells[i] + Zeros(w - X.cols) else Zeros(w)
  }

  /** `pad_matrix(mat, block_size)`: `n` is the number of rows, and both
      axes get `PadTo(n, bs) - n` zeros appended at the end (`np.pad` with
      `mode='constant'`).  The original entries keep their positions and
      every new entry is zero. */
  function Pad(X: Mat, bs: nat): (P: Mat)
    requires bs > 0
    ensures P.rows == PadTo(X.rows, bs)
    ensures P.cols == X.cols + (P.rows - X.rows)
    ensures forall i, j :: 0 <= i < X.rows && 0 <= j < X.cols ==> P.cells[i][j] == X.cells[i][j]
    ensures forall i, j :: 0 <= i < X.rows && X.cols <= j < P.cols ==> P.cells[i][j] == 0
    ensures forall i, j :: X.rows <= i < P.rows && 0 <= j < P.cols ==> P.cells[i][j] == 0
  {
    var t := PadTo(X.rows, bs);
    var w := X.cols + (t - X.rows);
    Matrix(t, w, seq(t, i requires 0 <= i < t => PadRow(X, i, w)))
  }

  /** Padding never loses data: the top-left corner of the padded matrix
      is the input. */
  lemma UnpadPad(X: Mat, bs: nat)
    requires bs > 0
    ensures SubMatrix(Pad(X, bs), 0, 0, X.rows, X.cols) == X
  {
    SameEntries(SubMatrix(Pad(X, bs), 0, 0, X.rows, X.cols), X);
  }

  /** An input whose row count is already a multiple of `bs` is returned
      unchanged. */
  lemma PadExact(X: Mat, bs: nat)
    requires bs > 0 && X.rows % bs == 0
    ensures Pad(X, bs) == X
  {
    PadToExact(X.rows, bs);
    SameEntries(Pad(X, bs), X);
  }

  /** Padding is idempotent. */
  lemma PadIdempotent(X: Mat, bs: nat)
    requires bs > 0
    ensures Pad(Pad(X, bs), bs) == Pad(X, bs)
  {
    PadExact(Pad(X, bs), bs);
  }

  /** A square input stays square, with a side divisible by `bs`. */
  lemma PadSquare(X: Mat, bs: nat)
    requires bs > 0 && X.rows == X.cols
    ensures Pad(X, bs).rows == Pad(X, bs).cols
    ensures Pad(X, bs).rows % bs == 0
  {
  }
}

=== FILE: pipeline.dfy ===
/** The library used end to end, as its test and example do: cut a square
    matrix into a 4 by 4 grid of blocks (`split_into_blocks`), run the RXTX
    kernel on the 16 blocks (`rxtx`), and glue the output grid back together
    (`combine_blocks`), optionally after zero padding (`pad_matrix`).  The
    theorems say that the result is `X @ X.T`. */
module Pipeline {
  import opened Matrices
  import opened Arith
  import opened Padding
  import opened Grid
  import opened Kernel

  /** The 16 blocks of a square matrix share the shape `n // 4` by `n // 4`,
      so `rxtx` can unpack them. */
  lemma SplitIsKernelInput(X: Mat)
    requires X.rows == X.cols
    ensures KernelInput(Split(X, 4)) && Split(X, 4)[0].rows == X.rows / 4
  {
    OffsetIsProduct(4, 4);
  }

  /** `combine_blocks(rxtx(split_into_blocks(X)))`: the kernel's output grid
      of `n // 4` by `n // 4` blocks glued into one matrix, as large as the
      part of `X` the blocks cover. */
  function RxtxProduct(X: Mat): (C: Mat)
    requires X.rows == X.cols
    ensures C.rows == Covered(X.rows, 4) && C.cols == Covered(X.rows, 4)
  {
    SplitIsKernelInput(X);
    var grid := Rxtx(Split(X, 4));
    GridCombinable(grid, 4, 4, X.rows / 4, X.rows / 4);
    Combine(grid)
  }

  // ---------------------------------------------------------------------
  // Dot products stretch by stretch

  /** The sum, over the first `k` stretches of `b` entries, of the dot
      products of those stretches of `u` and `v`. */
  function StretchDots(u: Vector, v: Vector, b: nat, k: nat): int
    requires |u| == |v| && Offset(k, b) <= |u|
    decreases k
  {
    if k == 0 then 0 else StretchDots(u, v, b, k - 1) + Dot(Stretch(u, b, k - 1), Stretch(v, b, k - 1))
  }

  /** The dot product of the first `k * b` entries is the sum of the dot
      products of the `k` stretches. */
  lemma {:induction false} DotStretches(u: Vector, v: Vector, b: nat, k: nat)
    requires |u| == |v| && Offset(k, b) <= |u|
    ensures Dot(u[..Offset(k, b)], v[..Offset(k, b)]) == StretchDots(u, v, b, k)
  {
    if k > 0 {
      var a, e := Offset(k - 1, b), Offset(k, b);
      assert u[..e] == u[..a] + Stretch(u, b, k - 1);
      assert v[..e] == v[..a] + Stretch(v, b, k - 1);
      DotAppend(u[..a], Stretch(u, b, k - 1), v[..a], Stretch(v, b, k - 1));
      DotStretches(u, v, b, k - 1);
    }
  }

  /** Four stretches, written out. */
  lemma StretchDotsFour(u: Vector, v: Vector, b: nat)
    requires |u| == |v| && Offset(4, b) <= |u|
    ensures Offset(1, b) <= Offset(2, b) <= Offset(3, b) <= Offset(4, b)
    ensures Dot(u[..Offset(4, b)], v[..Offset(4, b)]) ==
      Dot(Stretch(u, b, 0), Stretch(v, b, 0)) + Dot(Stretch(u, b, 1), Stretch(v, b, 1))
      + Dot(Stretch(u, b, 2), Stretch(v, b, 2)) + Dot(Stretch(u, b, 3), Stretch(v, b, 3))
  {
    DotStretches(u, v, b, 4);
    assert StretchDots(u, v, b, 2) == StretchDots(u, v, b, 1) + Dot(Stretch(u, b, 1), Stretch(v, b, 1));
    assert StretchDots(u, v, b, 3) == StretchDots(u, v, b, 2) + Dot(Stretch(u, b, 2), Stretch(v, b, 2));
  }

  // ---------------------------------------------------------------------
  // The main theorem

  /** Entry `(i, j)` of block `(p, q)` of the reference grid over any 16
      blocks: the sum over `k` of row products of blocks `4p + k` and
      `4q + k`. */
  lemma GramGridEntry(blocks: seq<Mat>, p: nat, q: nat, i: nat, j: nat)
    requires KernelInput(blocks) && p < 4 && q < 4 && i < blocks[0].rows && j < blocks[0].rows
    ensures GramGrid(blocks)[p][q].cells[i][j] ==
      RowDot(blocks[4 * p], blocks[4 * q], i, j) + RowDot(blocks[4 * p + 1], blocks[4 * q + 1], i, j)
      + RowDot(blocks[4 * p + 2], blocks[4 * q + 2], i, j) + RowDot(blocks[4 * p + 3], blocks[4 * q + 3], i, j)
  {
    GramGridAt(blocks, p, q);
    GramBlockAt(blocks, p, q, i, j);
  }

  /** `blocks` are the 16 blocks of `X` in row-major order: element
      `4p + k` is block `(p, k)`. */
  predicate Quartered(X: Mat, blocks: seq<Mat>)
    requires X.rows == X.cols
  {
    |blocks| == 16 &&
    forall p, k :: 0 <= p < 4 && 0 <= k < 4 ==> blocks[4 * p + k] == Block(X, 4, p, k)
  }

  /** `split_into_blocks(X)` lists the blocks in row-major order. */
  lemma SplitQuartered(X: Mat)
    requires X.rows == X.cols
    ensures Quartered(X, Split(X, 4))
  {
    OffsetIsProduct(4, 4);
    forall p, k | 0 <= p < 4 && 0 <= k < 4
      ensures Split(X, 4)[4 * p + k] == Block(X, 4, p, k)
    {
      OffsetIsProduct(p, 4);
      SplitAt(X, 4, p, k);
    }
  }

  /** The row product of blocks `(p, k)` and `(q, k)` is the dot product of
      stretch `k` of the two rows of `X` they come from. */
  lemma BlockRowDot(X: Mat, b: nat, p: nat, q: nat, k: nat, i: nat, j: nat)
    requires X.rows == X.cols && b == X.rows / 4 && p < 4 && q < 4 && k < 4 && i < b && j < b
    ensures Offset(p, b) + i < X.rows && Offset(q, b) + j < X.rows && Offset(k + 1, b) <= X.cols
    ensures Block(X, 4, p, k).cols == Block(X, 4, q, k).cols
    ensures i < Block(X, 4, p, k).rows && j < Block(X, 4, q, k).rows
    ensures RowDot(Block(X, 4, p, k), Block(X, 4, q, k), i, j) ==
      Dot(Stretch(X.cells[Offset(p, b) + i], b, k), Stretch(X.cells[Offset(q, b) + j], b, k))
  {
    BlockRowStretch(X, 4, b, p, k, i);
    BlockRowStretch(X, 4, b, q, k, j);
  }

  /** The kernel's grid over the split of `X` is the reference grid, so the
      pipeline's result is the reference grid glued together. */
  lemma RxtxProductIsGramGrid(X: Mat)
    requires X.rows == X.cols
    ensures KernelInput(Split(X, 4)) && Combinable(GramGrid(Split(X, 4)))
    ensures RxtxProduct(X) == Combine(GramGrid(Split(X, 4)))
  {
    SplitIsKernelInput(X);
    RxtxIsGramGrid(Split(X, 4));
    GridCombinable(GramGrid(Split(X, 4)), 4, 4, X.rows / 4, X.rows / 4);
  }

  /** The four row products that make up an entry of a reference block
      add up to the dot product of two rows of `X` cut to the covered
      width. */
  lemma BlockRowDots(X: Mat, b: nat, p: nat, q: nat, i: nat, j: nat)
    requires X.rows == X.cols && b == X.rows / 4 && p < 4 && q < 4 && i < b && j < b
    ensures Offset(4, b) <= X.cols && Offset(p, b) + i < X.rows && Offset(q, b) + j < X.rows
    ensures forall k :: 0 <= k < 4 ==>
      (Block(X, 4, p, k).cols == Block(X, 4, q, k).cols && i < Block(X, 4, p, k).rows && j < Block(X, 4, q, k).rows)
    ensures RowDot(Block(X, 4, p, 0), Block(X, 4, q, 0), i, j) + RowDot(Block(X, 4, p, 1), Block(X, 4, q, 1), i, j)
      + RowDot(Block(X, 4, p, 2), Block(X, 4, q, 2), i, j) + RowDot(Block(X, 4, p, 3), Block(X, 4, q, 3), i, j)
      == Dot(X.cells[Offset(p, b) + i][..Offset(4, b)], X.cells[Offset(q, b) + j][..Offset(4, b)])
  {
    PiecesFit(X.rows, 4);
    BlockRowDot(X, b, p, q, 0, i, j);
    BlockRowDot(X, b, p, q, 1, i, j);
    BlockRowDot(X, b, p, q, 2, i, j);
    BlockRowDot(X, b, p, q, 3, i, j);
    StretchDotsFour(X.cells[Offset(p, b) + i], X.cells[Offset(q, b) + j], b);
  }

  /** Entry `(i, j)` of reference block `(p, q)` over the split of `X`. */
  lemma GramGridOfSplitAt(X: Mat, b: nat, p: nat, q: nat, i: nat, j: nat)
    requires X.rows == X.cols && b == X.rows / 4 && p < 4 && q < 4 && i < b && j < b
    ensures KernelInput(Split(X, 4)) && Offset(4, b) <= X.cols
    ensures Offset(p, b) + i < X.rows && Offset(q, b) + j < X.rows
    ensures GramGrid(Split(X, 4))[p][q].cells[i][j] ==
      Dot(X.cells[Offset(p, b) + i][..Offset(4, b)], X.cells[Offset(q, b) + j][..Offset(4, b)])
  {
    SplitIsKernelInput(X);
    SplitQuartered(X);
    BlockRowDots(X, b, p, q, i, j);
    GramGridEntry(Split(X, 4), p, q, i, j);
  }

  /** Entry `(r, c)` of the glued reference grid is the dot product of rows
      `r` and `c` of `X`, both cut to the covered width `t`. */
  lemma GramGridOfSplitEntry(X: Mat, t: nat, r: nat, c: nat)
    requires X.rows == X.cols && t == Covered(X.rows, 4) && r < t && c < t
    requires KernelInput(Split(X, 4)) && Combinable(GramGrid(Split(X, 4)))
    requires Combine(GramGrid(Split(X, 4))).rows == t && Combine(GramGrid(Split(X, 4))).cols == t
    ensures Combine(GramGrid(Split(X, 4))).cells[r][c] == Dot(X.cells[r][..t], X.cells[c][..t])
  {
    var b := X.rows / 4;
    assert t == Offset(4, b);
    SplitIsKernelInput(X);
    var G := GramGrid(Split(X, 4));
    var p, i, q, j := CombineAtPosition(G, 4, b, r, c);
    GramGridOfSplitAt(X, b, p, q, i, j);
  }

  /** The glued reference grid over the split of `X` is `Y @ Y.T` for the
      covered top-left square `Y` of `X`. */
  lemma GramGridOfSplitIsGram(X: Mat, t: nat)
    requires X.rows == X.cols && t == Covered(X.rows, 4)
    ensures KernelInput(Split(X, 4)) && Combinable(GramGrid(Split(X, 4)))
    ensures Combine(GramGrid(Split(X, 4))) == Mul(SubMatrix(X, 0, 0, t, t), Transpose(SubMatrix(X, 0, 0, t, t)))
  {
    var Y := SubMatrix(X, 0, 0, t, t);
    SplitIsKernelInput(X);
    GridCombinable(GramGrid(Split(X, 4)), 4, 4, X.rows / 4, X.rows / 4);
    forall r, c | 0 <= r < t && 0 <= c < t
      ensures Combine(GramGrid(Split(X, 4))).cells[r][c] == Mul(Y, Transpose(Y)).cells[r][c]
    {
      GramGridOfSplitEntry(X, t, r, c);
      MulTransposeAt(Y, Y, r, c);
      assert Y.cells[r] == X.cells[r][..t];
      assert Y.cells[c] == X.cells[c][..t];
    }
    SameEntries(Combine(GramGrid(Split(X, 4))), Mul(Y, Transpose(Y)));
  }

  /** RXTX computes `Y @ Y.T` for the covered top-left square `Y` of `X`. */
  lemma RxtxProductIsGram(X: Mat)
    requires X.rows == X.cols
    ensures RxtxProduct(X) ==
      Mul(SubMatrix(X, 0, 0, Covered(X.rows, 4), Covered(X.rows, 4)),
          Transpose(SubMatrix(X, 0, 0, Covered(X.rows, 4), Covered(X.rows, 4))))
  {
    RxtxProductIsGramGrid(X);
    GramGridOfSplitIsGram(X, Covered(X.rows, 4));
  }

  /** When 4 divides the side, as in the library's test with a 16 by 16
      matrix, RXTX computes exactly `X @ X.T`. */
  lemma RxtxProductExact(X: Mat)
    requires X.rows == X.cols && X.rows % 4 == 0
    ensures RxtxProduct(X) == Mul(X, Transpose(X))
  {
    RxtxProductIsGram(X);
    CoveredExact(X.rows, 4);
    SameEntries(SubMatrix(X, 0, 0, X.rows, X.rows), X);
  }

  /** The result is a symmetric matrix. */
  lemma RxtxProductSymmetric(X: Mat)
    requires X.rows == X.cols
    ensures IsSymmetric(RxtxProduct(X))
  {
    RxtxProductIsGram(X);
    GramIsSymmetric(SubMatrix(X, 0, 0, Covered(X.rows, 4), Covered(X.rows, 4)));
  }

  // ---------------------------------------------------------------------
  // With padding

  /** The library's example: `combine_blocks(rxtx(split_into_blocks(pad_matrix(X))))`. */
  function PaddedRxtx(X: Mat): (C: Mat)
    requires X.rows == X.cols
    ensures C.rows == PadTo(X.rows, 4) && C.cols == PadTo(X.rows, 4)
  {
    PadSquare(X, 4);
    CoveredExact(Pad(X, 4).rows, 4);
    RxtxProduct(Pad(X, 4))
  }

  /** After padding, RXTX computes `P @ P.T` for the padded matrix `P`. */
  lemma PaddedRxtxIsGram(X: Mat)
    requires X.rows == X.cols
    ensures PaddedRxtx(X) == Mul(Pad(X, 4), Transpose(Pad(X, 4)))
  {
    PadSquare(X, 4);
    RxtxProductExact(Pad(X, 4));
  }

  /** Entry `(r, c)` of `P @ P.T` for the padded `P`: the entry of `X @ X.T`
      inside the original square, zero outside it. */
  lemma PaddedGramAt(X: Mat, r: nat, c: nat)
    requires X.rows == X.cols && r < PadTo(X.rows, 4) && c < PadTo(X.rows, 4)
    ensures Mul(Pad(X, 4), Transpose(Pad(X, 4))).cells[r][c] ==
      if r < X.rows && c < X.rows then Mul(X, Transpose(X)).cells[r][c] else 0
  {
    var P := Pad(X, 4);
    var z := P.cols - X.cols;
    MulTransposeAt(P, P, r, c);
    if r < X.rows && c < X.rows {
      MulTransposeAt(X, X, r, c);
      assert P.cells[r] == X.cells[r] + Zeros(z);
      assert P.cells[c] == X.cells[c] + Zeros(z);
      DotAppend(X.cells[r], Zeros(z), X.cells[c], Zeros(z));
      DotZeros(Zeros(z));
    } else if r >= X.rows {
      assert P.cells[r] == Zeros(P.cols);
      DotSymmetric(P.cells[r], P.cells[c]);
      DotZeros(P.cells[c]);
    } else {
      assert P.cells[c] == Zeros(P.cols);
      DotZeros(P.cells[r]);
    }
  }

  /** `P @ P.T` for the padded `P` holds `X @ X.T` in its top-left corner
      and zeros in the padding rows and columns. */
  lemma PaddedGramCorner(X: Mat)
    requires X.rows == X.cols
    ensures X.rows <= Mul(Pad(X, 4), Transpose(Pad(X, 4))).rows
    ensures SubMatrix(Mul(Pad(X, 4), Transpose(Pad(X, 4))), 0, 0, X.rows, X.rows) == Mul(X, Transpose(X))
    ensures forall r, c :: 0 <= r < PadTo(X.rows, 4) && 0 <= c < PadTo(X.rows, 4) && (X.rows <= r || X.rows <= c) ==>
      Mul(Pad(X, 4), Transpose(Pad(X, 4))).cells[r][c] == 0
  {
    var G := Mul(Pad(X, 4), Transpose(Pad(X, 4)));
    var t := PadTo(X.rows, 4);
    forall r, c | 0 <= r < t && 0 <= c < t
      ensures G.cells[r][c] == if r < X.rows && c < X.rows then Mul(X, Transpose(X)).cells[r][c] else 0
    {
      PaddedGramAt(X, r, c);
    }
    SameEntries(SubMatrix(G, 0, 0, X.rows, X.rows), Mul(X, Transpose(X)));
  }

  /** The padded pipeline gives `X @ X.T` in its top-left corner and zeros
      in the padding rows and columns, so cutting the corner out recovers
      the product of the unpadded input. */
  lemma PaddedRxtxCorner(X: Mat) returns (C: Mat)
    requires X.rows == X.cols
    ensures C == PaddedRxtx(X) && X.rows <= C.rows
    ensures SubMatrix(C, 0, 0, X.rows, X.rows) == Mul(X, Transpose(X))
    ensures forall r, c :: 0 <= r < C.rows && 0 <= c < C.rows && (X.rows <= r || X.rows <= c) ==> C.cells[r][c] == 0
  {
    PaddedRxtxIsGram(X);
    PaddedGramCorner(X);
    C := PaddedRxtx(X);
  }
}
